=== FILE: README.md ===
# Shipment tracker core, modelled in Dafny

The repository is a small shipment-tracking front end for orders shipped from
China to Libya. Orders live in a remote REST table (a Supabase project) and
in a local mirror kept in the browser's `localStorage`. An admin view edits,
searches and exports the orders. A customer view looks one order up by its
tracking code.

This project models the pure logic of three files:

- `store.ts`: the readiness test, the request URL and headers, response
  classification, the wire-to-order mapping, and the local upsert and delete
  on the mirror. It also models which remote requests `syncOrder` and
  `deleteOrder` send.
- `components/AdminView.tsx`: the status labels, the validation and defaults
  applied by `handleSave`, the search filter, the CSV export text and the
  new-order template.
- `components/UserView.tsx`: tracking-code normalisation, the first-match
  lookup, the state the search leaves behind, and the public status labels.

The local mirror is an `Option<seq<Order>>`; `None` means nothing is stored.
The remote service is an input: each request's outcome is an `HttpOutcome`
value (a network error, or a status code and a parsed body). The requests an
operation sends are returned as a list, so their order, verb, URL and body can
be stated. The current time is a parameter.

Files:

- `wrappers.dfy`: `Option`.
- `seqs.dfy`: the list operations the code uses, with their lemmas: `filter`,
  `findIndex`, `map`, `join` and `split`.
- `text.dfy`: `trim`, ASCII case mapping, `includes` and decimal rendering.
- `domain.dfy`: `Order`, `AppNotification`, the statuses and JavaScript
  truthiness.
- `store.dfy`, `admin_view.dfy`, `user_view.dfy`: the three source files.

## Model

| member | source | states |
|---|---|---|
| Store.ShippedUrlNeverReady | config.ts:7 | with the URL the repository ships with, the configuration is never ready, whatever the key and the enabled flag |
| Store.MissingKeyNeverReady | config.ts:5-15 | a configuration without a key is never ready, whatever the URL; the shipped configuration object declares only a publishable and a secret key |
| Store.RequestUrl | store.ts:25 | the URL is base + `/rest/v1/` + table, then `?` + query when a query is given, else `?select=*` for GET, else nothing |
| Store.RequestUrlQuery | store.ts:25 | the query string a server reads back from the URL is the query asked for; for a GET without a query it is `select=*`; otherwise there is none |
| Store.RequestHeaders | store.ts:17-23 | the key is sent as `apikey` and as a bearer token, with JSON content type; a `Prefer: return=representation` header is present exactly for POST, and no other header is sent: three headers, four for POST |
| Store.Classify | store.ts:34-38 | only a 2xx response yields data; 204 yields an empty array; any other 2xx yields the parsed body; failures yield null |
| Store.SupabaseRequest | store.ts:14-40 | a request is sent exactly when the configuration is ready; it carries the URL and headers above and the body; nothing sent means a null result |
| Store.FromWire | store.ts:46-60 | every column is copied to its camelCase field; each position is present exactly when its latitude column is truthy, and then holds that latitude and the longitude column as is |
| Store.ToWire | store.ts:85-96 | the written record has no id and no positions; it is stamped with the write time; the location text defaults to the empty string exactly when the order's location is missing or empty |
| Store.WireRoundTrip | store.ts:46-60 | reading back a written record gives the order minus id and positions, with the write time and the defaulted location text |
| Store.FetchOrders | store.ts:42-67 | when ready, one `GET .../orders?select=*` is sent, carrying the key headers; an array response replaces the mirror with the mapped rows, in order; otherwise the mirror is unchanged and its contents (or the empty list) are returned |
| Store.FindsFirstMatch | store.ts:72 | `findIndex` with the same-id-or-same-code test returns exactly the first matching position, or none when nothing matches |
| Store.Upsert | store.ts:72-80 | the first entry with the same id or code is replaced in place by the stamped order, with the length and every other entry unchanged; with no match the stamped order is prepended to the unchanged list |
| Store.UpsertHoldsCode | store.ts:72-81 | after the upsert the mirror holds an entry with the saved tracking code |
| Store.UpsertIdempotent | store.ts:72-80 | saving the same order twice at the same time equals saving it once |
| Store.SameCodeNoDuplicate | store.ts:72-80 | a second save under a tracking code already saved does not lengthen the list |
| Store.SyncOrder | store.ts:69-104 | the mirror becomes the upsert of what was read; when not ready, no request is sent; when ready, the read is a body-less `GET .../orders?select=*`, then a body-less existence GET filtered by `order_code` is sent, then a PATCH with the same filter if rows were found, else a POST; the write carries the wire record; every request carries the key headers for its verb |
| Store.SyncRequests | store.ts:84-103 | the lookup is a body-less GET filtered by `order_code`; the write is a PATCH with that filter when rows were found, otherwise a POST to the table; the write carries the wire record and both carry the key headers for their verb |
| Store.SavedOrderSurvivesOutage | store.ts:65-81 | after a save, a read that cannot reach the service still returns the saved order |
| Store.RemoveId | store.ts:112 | no entry with the id remains; every entry with another id is kept; the result keeps the original relative order |
| Store.RemoveIdTwice | store.ts:112 | deleting the same id twice equals deleting it once |
| Store.RemoveIdAppend | store.ts:112 | removal distributes over concatenation, so relative order is kept across any split of the list |
| Store.DeleteOrder | store.ts:109-121 | the mirror becomes what was read minus the id; when ready, the read is a body-less `GET .../orders?select=*` followed by a body-less DELETE filtered by `id`, and offline nothing is sent; every request carries the key headers |
| Store.DeleteRequest | store.ts:116-118 | the request is a body-less DELETE filtered by `id`, with the key headers |
| Store.DeletedOrderStaysGoneOffline | store.ts:65-66 | after a delete, a read that cannot reach the service shows no entry with that id |
| Store.FetchNotifications | store.ts:123-138 | the notification rows mapped field by field, in order, when ready and an array comes back; otherwise the empty list |
| AdminView.StatusLabel | components/AdminView.tsx:29-36 | every status has a non-empty label in both languages |
| AdminView.StatusLabelsDistinct | components/AdminView.tsx:29-36 | in each language, two statuses have the same admin label exactly when they are equal |
| AdminView.TempIdEncodesTime | components/AdminView.tsx:67 | the temporary id is `temp-` followed by decimal digits that read back as the save time |
| AdminView.Normalise | components/AdminView.tsx:58-73 | a save is refused exactly when the code or the customer name is missing or empty; otherwise the id, time, status, quantity, price and location get their defaults and every other field is kept |
| AdminView.NormaliseIdempotent | components/AdminView.tsx:65-73 | normalising an already normalised order at the same time changes nothing |
| AdminView.NormaliseKeepsNormalised | components/AdminView.tsx:65-73 | an order already in the saved shape changes only in its time stamp |
| AdminView.HandleSave | components/AdminView.tsx:57-75 | a refused save sends nothing and leaves the mirror alone; otherwise the mirror is the upsert of the normalised order into what was read, so every other entry is kept, the requests are exactly those of `syncOrder` for that order, and when ready the write carries the edited tracking code and every request the key headers |
| AdminView.LoadData | components/AdminView.tsx:38-44 | a reload after a mutation: a remote list replaces the mirror with the mapped rows in order, otherwise the mirror is left as the mutation left it; the mutation's requests come first and, when ready, one `GET .../orders?select=*` follows, and the list keeps the key headers when the mutation's did |
| AdminView.SaveAndReload | components/AdminView.tsx:57-77 | the save followed by the reload of `loadData`: a refused save does nothing; the requests of the save come first; without remote rows the mirror is exactly the one the save left, holding the saved order; when ready, the reload is a fourth request, `GET .../orders?select=*`, and an array answer replaces the mirror with the remote rows in order; every request carries the key headers |
| AdminView.DeleteAndReload | components/AdminView.tsx:191 | the delete followed by the reload: the requests of the delete come first; unless the reload brings remote rows, the mirror is exactly what was read minus the id; with remote rows the mirror holds exactly those; offline nothing is sent, and otherwise every request carries the key headers |
| AdminView.FilterOrders | components/AdminView.tsx:108-113 | the result is a subsequence of the orders; an order is kept exactly when the lower-cased term occurs in its lower-cased code or customer name |
| AdminView.FilterOrdersAppend | components/AdminView.tsx:108-113 | filtering a list split in two is filtering each part, so every kept order appears as often as in the list, in list order |
| AdminView.EmptySearchKeepsAll | components/AdminView.tsx:108-113 | an empty search keeps every order |
| AdminView.SearchIgnoresCase | components/AdminView.tsx:109-112 | upper-casing the term does not change the result |
| AdminView.ExportCsv | components/AdminView.tsx:86-97 | no export for an empty list; otherwise the text starts with the CSV data-URL prefix |
| AdminView.RowSplitsIntoCells | components/AdminView.tsx:88-95 | when no text field holds a comma, a row splits back into its six cells: code, quoted name, quoted product, status, price and quoted location |
| AdminView.RowHasNoNewline | components/AdminView.tsx:88-95 | a row holds no line break when no text field does |
| AdminView.HeaderSplits | components/AdminView.tsx:87 | the header line splits back into the six column names |
| AdminView.CsvLinesShape | components/AdminView.tsx:87-97 | there is one line per order plus the header line first; line i + 1 is order i's row |
| AdminView.ExportLines | components/AdminView.tsx:97 | when no text field holds a line break, the export text after the prefix splits back into exactly the header line and the rows |
| AdminView.EditCode | components/AdminView.tsx:225 | an edit of the code field stores the upper-cased input, leaves no lower-case letter, and changes no other field |
| AdminView.NewOrderNeedsName | components/AdminView.tsx:142 | the new-order template cannot be saved as it is |
| AdminView.NewOrderDefaults | components/AdminView.tsx:142 | once named, the template saves with code `LY-`, a temporary id, status China_Store with its label as location, quantity 1 and price 0 |
| UserView.SearchKey | components/UserView.tsx:18 | the key is the upper-cased infix of the input left by a cut that removes only spaces at both ends; it has no space at either end and no lower-case letter |
| UserView.SearchKeyIdempotent | components/UserView.tsx:18 | normalising a key again changes nothing |
| UserView.SearchKeyIgnoresCase | components/UserView.tsx:18-25 | the key does not depend on the case of the input or of the stored code |
| UserView.SearchKeyIgnoresSurroundingSpace | components/UserView.tsx:18-25 | the key does not depend on spaces around the input or the stored code |
| UserView.FindByCode | components/UserView.tsx:25 | the first order whose code normalises to the key; none exactly when no order's code does |
| UserView.FindAsWritten | components/UserView.tsx:25 | a found order has the key; the lookup throws exactly when some order without a code comes before every order with the key |
| UserView.AsWrittenAgreesUnlessThrown | components/UserView.tsx:25 | whenever the lookup as written does not throw, it finds what `FindByCode` finds |
| UserView.CodesPresentNeverThrows | components/UserView.tsx:25 | when every order has a code, the lookup as written never throws |
| UserView.HandleSearch | components/UserView.tsx:17-33 | a blank key changes nothing and sends nothing; otherwise orders are fetched and loading ends false, showing either the first order with the key and no error, or no order and the not-found message |
| UserView.HandleSearchAsWritten | components/UserView.tsx:17-33 | when the lookup throws, loading stays on with the error cleared and the previous order kept, while the mirror and the GET are those the fetch already left; otherwise it behaves as `HandleSearch` |
| UserView.AsWrittenAgreesWithCodes | components/UserView.tsx:17-33 | when every fetched order has a code, the search as written and the corrected search agree |
| UserView.MissingCodeLeavesSearchLoading | components/UserView.tsx:25 | with an order without a code listed before `LY-1`, searching `ly-1` leaves the view as written loading with nothing shown, while the corrected search finds the order |
| UserView.PublicStatusLabel | components/UserView.tsx:35-42 | every status has a non-empty customer label in both languages |
| UserView.PublicLabelsMergeChina | components/UserView.tsx:35-42 | two statuses have the same customer label exactly when they are equal or both are stages in China |

## Left out

- Browser I/O is not modelled: `fetch`, `localStorage`, `window.dispatchEvent`, `alert`, `confirm` and the download link. The mirror and the request outcomes are values; the requests sent are returned as a list.
- JSON serialisation of the mirror is treated as the identity. Every list written can be read back as it was.
- Dates are integers. `Date.now()`, `new Date(...).toISOString()` and `getTime()` become one time value per operation. `NaN` from an unparsable date counts as missing.
- Numbers are mathematical integers. The form's `parseFloat`, `Number(...)` on strings, fractions and the exponent notation JavaScript uses from 1e21 upwards are not modelled.
- Case mapping covers ASCII letters only, and `trim` uses the whitespace set of ECMA-262. Unicode case mapping is not modelled.
- A status outside the six known values is not modelled. The admin table would show such a status as it is, and the CSV export would write it as it is. The customer view would show an empty label, and a save of such an order without a location would leave the location `undefined`, since the default label lookup finds nothing.
- `null` and a missing value are one value (`None`) in the model. JavaScript renders `null` as `null` in a template literal and a missing value as `undefined`; the model renders both as `undefined` (the `order_code=eq.` and `id=eq.` filters). JavaScript's `===` and `!==` also tell them apart; the model treats them as equal, so deleting a `null` id also drops entries whose id is missing, and the same-record test of a save matches them.
- The caller role the views pass (`fetchOrders('admin')`, `fetchOrders('user')`, `isConfigReady('user')`) is ignored. `store.ts` takes no argument and reads a single `key` property. It does not export `isConfigReady` at all. The connection badge that call feeds is not modelled.
- `config.ts` declares `publishableKey` and `secretKey` but no `key`. The model keeps `store.ts`'s reading, so a configuration object like the shipped one is never ready (`Store.MissingKeyNeverReady`). Choosing a key by role is not modelled.
- The response to the PATCH or POST in `syncOrder` and to the DELETE is ignored by the code. The model therefore takes no outcome for them.
- A re-save replaces the whole mirror entry with the new order, id included; the old entry's id is not carried over. `Store.Upsert` models this as the code does, although a design that keeps the stored id would read more naturally.
- `AdminView.HandleSave` describes the state after `syncOrder` and before the reload of `loadData`; `AdminView.SaveAndReload` adds the reload. The busy and error flags of the admin view and a save that throws are not modelled.
- `encodeURI` on the CSV text is not modelled. `AdminView.ExportCsv` yields the text before encoding.
- `AdminView.CsvLinesShape`: states the header line by its six column names, not as one literal string.
- Asynchronous interleaving of two operations is not modelled. Each operation runs to completion on its inputs.

## Findings

| source | as written | input that shows it | evidently intended | confidence | as-written member | corrected member |
|---|---|---|---|---|---|---|
| components/UserView.tsx:25 | `o.orderCode.trim()` is called on every order the lookup reaches, so an order without a tracking code throws a TypeError; the promise is rejected after `setLoading(true)`, leaving the spinner on | mirror `[order with no code, order "LY-1"]`, offline, search `ly-1` | orders without a code are skipped and the search completes, finding `LY-1` | not executed; medium (depends on remote rows or mirrored entries with a missing code) | UserView.MissingCodeLeavesSearchLoading | UserView.HandleSearch |

=== FILE: admin_view.dfy ===
/** The pure logic of the admin view (`components/AdminView.tsx`): the status
    labels, the validation and defaulting done before an edited order is
    saved, the search filter over the table, the CSV export text, and the
    new-order template with its upper-casing code field.

    The language switch is the boolean `isAr` the view computes. */
module AdminView {
  import opened Wrappers
  import opened Seqs
  import opened Text
  import opened Domain
  import opened Store

  // ---------------------------------------------------------------------------
  // Status labels

  /** The admin's label for each status, in Arabic or in English. */
  function StatusLabel(isAr: bool, s: OrderStatus): (text: string)
    ensures |text| > 0
  {
    match s
    case ChinaStore => if isAr then "بانتظار الشحن" else "Pending"
    case ChinaWarehouse => if isAr then "في مخزن الصين" else "Warehouse CN"
    case EnRoute => if isAr then "في الشحن الدولي" else "En Route"
    case LibyaWarehouse => if isAr then "وصلت ليبيا" else "Warehouse LY"
    case OutForDelivery => if isAr then "خرجت للتوصيل" else "Out for Delivery"
    case Delivered => if isAr then "تم التسليم" else "Delivered"
  }

  /** In either language the admin labels tell every status apart. */
  lemma StatusLabelsDistinct(isAr: bool, a: OrderStatus, b: OrderStatus)
    ensures StatusLabel(isAr, a) == StatusLabel(isAr, b) <==> a == b
  {
  }

  // ---------------------------------------------------------------------------
  // Saving an edited order

  /** The id a new order gets: `temp-` and the time in milliseconds. */
  function TempId(now: nat): string {
    "temp-" + NatToDecimal(now)
  }

  /** The temporary id encodes the time it was made at. */
  lemma TempIdEncodesTime(now: nat)
    ensures |TempId(now)| > 5 && TempId(now)[..5] == "temp-"
    ensures forall k :: 5 <= k < |TempId(now)| ==> IsDigit(TempId(now)[k])
    ensures DecimalValue(TempId(now)[5..]) == now
  {
    assert TempId(now)[5..] == NatToDecimal(now);
    DecimalRoundTrip(now);
  }

  /** A save goes ahead only with a tracking code and a customer name. */
  predicate HasBasicInfo(draft: Order) {
    IsTruthyText(draft.orderCode) && IsTruthyText(draft.customerName)
  }

  /** The shape every saved order has: basic info, an id, a status, a
      non-zero quantity, a price and a location text. */
  predicate IsNormalised(o: Order) {
    && HasBasicInfo(o)
    && IsTruthyText(o.id)
    && o.updatedAt.Some?
    && o.status.Some?
    && IsTruthyNumber(o.quantity)
    && o.totalPrice.Some?
    && IsTruthyText(o.currentPhysicalLocation)
  }

  /** The validation and defaulting `handleSave` applies before saving:
      `None` when the save is refused. */
  function Normalise(draft: Order, now: nat, isAr: bool): (r: Option<Order>)
    ensures r.None? <==> !HasBasicInfo(draft)
    ensures r.Some? ==> IsNormalised(r.value) && r.value.updatedAt == Some(now)
    ensures r.Some? ==> r.value.id == Some(if IsTruthyText(draft.id) then draft.id.value else TempId(now))
    ensures r.Some? ==> r.value.status == Some(draft.status.GetOr(ChinaStore))
    ensures r.Some? ==> r.value.quantity == Some(if IsTruthyNumber(draft.quantity) then draft.quantity.value else 1)
    ensures r.Some? ==> r.value.totalPrice == Some(if IsTruthyNumber(draft.totalPrice) then draft.totalPrice.value else 0)
    ensures r.Some? ==>
      r.value.currentPhysicalLocation ==
        Some(if IsTruthyText(draft.currentPhysicalLocation) then draft.currentPhysicalLocation.value
             else StatusLabel(isAr, draft.status.GetOr(ChinaStore)))
    ensures r.Some? ==> r.value.(id := draft.id, updatedAt := draft.updatedAt, status := draft.status,
      quantity := draft.quantity, totalPrice := draft.totalPrice,
      currentPhysicalLocation := draft.currentPhysicalLocation) == draft
  {
    if !HasBasicInfo(draft) then None
    else
      var status := draft.status.GetOr(ChinaStore);
      Some(draft.(
        id := Some(TextOr(draft.id, TempId(now))),
        updatedAt := Some(now),
        currentPhysicalLocation := Some(TextOr(draft.currentPhysicalLocation, StatusLabel(isAr, status))),
        quantity := Some(NumberOr(draft.quantity, 1)),
        totalPrice := Some(NumberOr(draft.totalPrice, 0)),
        status := Some(status)))
  }

  /** Saving an order that was already saved at this time changes nothing:
      every default is already filled in. */
  lemma NormaliseIdempotent(draft: Order, now: nat, isAr: bool)
    requires Normalise(draft, now, isAr).Some?
    ensures Normalise(Normalise(draft, now, isAr).value, now, isAr) == Normalise(draft, now, isAr)
  {
  }

  /** An order already in the saved shape is changed only in its time stamp. */
  lemma NormaliseKeepsNormalised(o: Order, now: nat, isAr: bool)
    requires IsNormalised(o)
    ensures Normalise(o, now, isAr) == Some(o.(updatedAt := Some(now)))
  {
  }

  /** `handleSave`: a refused save changes nothing and sends nothing;
      otherwise the normalised order goes through `syncOrder`. */
  function HandleSave(draft: Order, now: nat, isAr: bool, cfg: DbConfig, cache: Option<seq<Order>>,
                      fetchOutcome: HttpOutcome<WireOrder>, checkOutcome: HttpOutcome<WireOrder>): (e: Effect)
    ensures !HasBasicInfo(draft) ==> e == Effect(cache, [])
    ensures HasBasicInfo(draft) ==> e.cache.Some? && Normalise(draft, now, isAr).value in e.cache.value
    ensures HasBasicInfo(draft) ==>
      e.cache == Some(Upsert(FetchOrders(cfg, cache, fetchOutcome).orders, Normalise(draft, now, isAr).value, now))
    ensures HasBasicInfo(draft) ==>
      e.sent == SyncOrder(cfg, cache, Normalise(draft, now, isAr).value, now, fetchOutcome, checkOutcome).sent
    ensures HasBasicInfo(draft) && !IsConfigReady(cfg) ==> e.sent == []
    ensures IsConfigReady(cfg) ==> SignedWith(cfg.key.value, e.sent)
    ensures HasBasicInfo(draft) && IsConfigReady(cfg) ==>
      (|e.sent| == 3 && e.sent[2].body.Some? && e.sent[2].body.value.order_code == draft.orderCode)
  {
    match Normalise(draft, now, isAr)
    case None => Effect(cache, [])
    case Some(order) =>
      assert Stamp(order, now) == order;
      SyncOrder(cfg, cache, order, now, fetchOutcome, checkOutcome)
  }

  /** A reload's answer that replaces the mirror with the remote rows. */
  predicate IsRemoteList(cfg: DbConfig, outcome: HttpOutcome<WireOrder>) {
    IsConfigReady(cfg) && Classify(outcome).Data? && Classify(outcome).data.WireArray?
  }

  /** `loadData` after a mutation `before`: read the repository again. A
      remote list replaces the mirror; otherwise the mirror is left as the
      mutation left it. When ready, one more GET follows the mutation's
      requests. */
  function LoadData(cfg: DbConfig, before: Effect, outcome: HttpOutcome<WireOrder>): (e: Effect)
    ensures !IsRemoteList(cfg, outcome) ==> e.cache == before.cache
    ensures IsRemoteList(cfg, outcome) ==>
      var items := Classify(outcome).data.items;
      e.cache.Some? && |e.cache.value| == |items|
      && forall i :: 0 <= i < |items| ==> e.cache.value[i] == FromWire(items[i])
    ensures |e.sent| == |before.sent| + (if IsConfigReady(cfg) then 1 else 0)
    ensures e.sent[..|before.sent|] == before.sent
    ensures IsConfigReady(cfg) ==>
      var last := e.sent[|e.sent| - 1];
      last.verb == Get && last.body.None? && last.url == cfg.url.value + RestPath + "orders" + "?select=*"
    ensures IsConfigReady(cfg) && SignedWith(cfg.key.value, before.sent) ==> SignedWith(cfg.key.value, e.sent)
  {
    var reload := FetchOrders(cfg, before.cache, outcome);
    if IsConfigReady(cfg) then
      assert SignedWith(cfg.key.value, before.sent) ==> SignedWith(cfg.key.value, before.sent + reload.sent) by {
        if SignedWith(cfg.key.value, before.sent) {
          SignedConcat(cfg.key.value, before.sent, reload.sent);
        }
      }
      assert (before.sent + reload.sent)[..|before.sent|] == before.sent;
      Effect(reload.cache, before.sent + reload.sent)
    else Effect(reload.cache, before.sent)
  }

  /** The whole of `handleSave`: the save, then `loadData` reading the
      repository again. When the service is not ready the saved order stays
      in the mirror; when it is, the reload's GET is the fourth request and
      an array answer replaces the mirror with the remote rows, which need
      not hold the order saved under a temporary id. */
  function SaveAndReload(draft: Order, now: nat, isAr: bool, cfg: DbConfig, cache: Option<seq<Order>>,
                         fetchOutcome: HttpOutcome<WireOrder>, checkOutcome: HttpOutcome<WireOrder>,
                         reloadOutcome: HttpOutcome<WireOrder>): (e: Effect)
    ensures !HasBasicInfo(draft) ==> e == Effect(cache, [])
    ensures HasBasicInfo(draft) && !IsRemoteList(cfg, reloadOutcome) ==>
      e.cache.Some? && Normalise(draft, now, isAr).value in e.cache.value
    ensures HasBasicInfo(draft) && !IsRemoteList(cfg, reloadOutcome) ==>
      e.cache == HandleSave(draft, now, isAr, cfg, cache, fetchOutcome, checkOutcome).cache
    ensures var s := HandleSave(draft, now, isAr, cfg, cache, fetchOutcome, checkOutcome).sent;
      |s| <= |e.sent| && e.sent[..|s|] == s
    ensures HasBasicInfo(draft) && !IsConfigReady(cfg) ==> e.sent == []
    ensures IsConfigReady(cfg) ==> SignedWith(cfg.key.value, e.sent)
    ensures HasBasicInfo(draft) && IsConfigReady(cfg) ==>
      (|e.sent| == 4 && e.sent[3].verb == Get && e.sent[3].url == cfg.url.value + RestPath + "orders" + "?select=*")
    ensures HasBasicInfo(draft) && IsRemoteList(cfg, reloadOutcome) ==>
      var items := Classify(reloadOutcome).data.items;
      e.cache.Some? && |e.cache.value| == |items|
      && forall i :: 0 <= i < |items| ==> e.cache.value[i] == FromWire(items[i])
  {
    if !HasBasicInfo(draft) then Effect(cache, [])
    else
      LoadData(cfg, HandleSave(draft, now, isAr, cfg, cache, fetchOutcome, checkOutcome), reloadOutcome)
  }

  /** The delete button: `deleteOrder`, then `loadData`. When the reload
      does not replace the mirror with remote rows, no entry with the id is
      left; otherwise the mirror holds the remote rows. */
  function DeleteAndReload(cfg: DbConfig, cache: Option<seq<Order>>, id: Option<string>,
                           fetchOutcome: HttpOutcome<WireOrder>, reloadOutcome: HttpOutcome<WireOrder>): (e: Effect)
    ensures !IsRemoteList(cfg, reloadOutcome) ==>
      e.cache.Some? && forall o :: o in e.cache.value ==> o.id != id
    ensures !IsRemoteList(cfg, reloadOutcome) ==>
      e.cache == Some(RemoveId(FetchOrders(cfg, cache, fetchOutcome).orders, id))
    ensures var s := DeleteOrder(cfg, cache, id, fetchOutcome).sent;
      |s| <= |e.sent| && e.sent[..|s|] == s
    ensures IsRemoteList(cfg, reloadOutcome) ==>
      var items := Classify(reloadOutcome).data.items;
      e.cache.Some? && |e.cache.value| == |items|
      && forall i :: 0 <= i < |items| ==> e.cache.value[i] == FromWire(items[i])
    ensures !IsConfigReady(cfg) ==> e.sent == []
    ensures IsConfigReady(cfg) ==> SignedWith(cfg.key.value, e.sent)
  {
    LoadData(cfg, DeleteOrder(cfg, cache, id, fetchOutcome), reloadOutcome)
  }

  // ---------------------------------------------------------------------------
  // The search filter

  /** The text the filter reads from an optional field: `String(x || '')`, lower-cased. */
  function SearchText(s: Option<string>): string {
    ToLower(TextOr(s, ""))
  }

  function MatchesSearch(term: string): Order -> bool {
    (o: Order) => Contains(SearchText(o.orderCode), ToLower(term)) || Contains(SearchText(o.customerName), ToLower(term))
  }

  /** `filteredOrders`: the orders, in list order, whose lower-cased code
      or customer name contains the lower-cased search term. */
  function FilterOrders(orders: seq<Order>, term: string): (r: seq<Order>)
    ensures IsSubsequence(r, orders)
    ensures forall o :: o in r <==>
      o in orders && (IsSubstring(ToLower(term), SearchText(o.orderCode)) || IsSubstring(ToLower(term), SearchText(o.customerName)))
  {
    FilterIsSubsequence(orders, MatchesSearch(term));
    Filter(orders, MatchesSearch(term))
  }

  /** The filter works order by order: filtering a list split in two is
      filtering each part, so every order is kept as often as it occurs. */
  lemma FilterOrdersAppend(a: seq<Order>, b: seq<Order>, term: string)
    ensures FilterOrders(a + b, term) == FilterOrders(a, term) + FilterOrders(b, term)
  {
    FilterAppend(a, b, MatchesSearch(term));
  }

  /** An empty search shows every order. */
  lemma EmptySearchKeepsAll(orders: seq<Order>)
    ensures FilterOrders(orders, "") == orders
  {
    forall i | 0 <= i < |orders| ensures MatchesSearch("")(orders[i]) {
      ContainsEmpty(SearchText(orders[i].orderCode));
    }
    FilterKeepsAll(orders, MatchesSearch(""));
  }

  /** The filter ignores the case the term is typed in. */
  lemma SearchIgnoresCase(orders: seq<Order>, term: string)
    ensures FilterOrders(orders, ToUpper(term)) == FilterOrders(orders, term)
  {
    assert ToLower(ToUpper(term)) == ToLower(term);
    assert MatchesSearch(ToUpper(term)) == MatchesSearch(term);
  }

  // ---------------------------------------------------------------------------
  // CSV export

  const CsvHeaders: seq<string> := ["Order Code", "Customer", "Product", "Status", "Price", "Location"]

  /** The scheme and media type the download link starts with. */
  const CsvPrefix: string := "data:text/csv;charset=utf-8,"

  function Quote(s: string): string {
    "\"" + s + "\""
  }

  /** `o.status || ''` as text. */
  function StatusText(s: Option<OrderStatus>): string {
    if s.Some? then StatusName(s.value) else ""
  }

  /** The six cells of one order's row. */
  function RowCells(o: Order): seq<string> {
    [ TextOr(o.orderCode, ""),
      Quote(TextOr(o.customerName, "")),
      Quote(TextOr(o.productName, "")),
      StatusText(o.status),
      IntToDecimal(NumberOr(o.totalPrice, 0)),
      Quote(TextOr(o.currentPhysicalLocation, "")) ]
  }

  function CsvRow(o: Order): string {
    Join(RowCells(o), ',')
  }

  function CsvLines(orders: seq<Order>): seq<string> {
    [Join(CsvHeaders, ',')] + Map(orders, CsvRow)
  }

  /** `exportToCSV`: nothing for an empty list; otherwise the header line
      and one line per order, in list order. */
  function ExportCsv(orders: seq<Order>): (r: Option<string>)
    ensures r.None? <==> |orders| == 0
    ensures r.Some? ==> CsvPrefix <= r.value
  {
    if |orders| == 0 then None
    else Some(CsvPrefix + Join(CsvLines(orders), '\n'))
  }

  /** None of the text an order contributes to the export holds `c`. */
  predicate FreeOf(o: Order, c: char) {
    && c !in TextOr(o.orderCode, "")
    && c !in TextOr(o.customerName, "")
    && c !in TextOr(o.productName, "")
    && c !in TextOr(o.currentPhysicalLocation, "")
  }

  lemma StatusTextPlain(s: Option<OrderStatus>)
    ensures ',' !in StatusText(s) && '\n' !in StatusText(s)
  {
    var t := StatusText(s);
    forall k | 0 <= k < |t| ensures t[k] != ',' && t[k] != '\n' {
      assert 'A' <= t[k] <= 'z';
    }
  }

  lemma DecimalPlain(i: int)
    ensures ',' !in IntToDecimal(i) && '\n' !in IntToDecimal(i)
  {
    var r := IntToDecimal(i);
    forall k | 0 <= k < |r| ensures r[k] != ',' && r[k] != '\n' {
    }
  }

  /** When no text field holds a comma, a row splits back into exactly its
      six cells: code, quoted name, quoted product, status, price, quoted
      location. */
  lemma RowSplitsIntoCells(o: Order)
    requires FreeOf(o, ',')
    ensures |Split(CsvRow(o), ',')| == 6
    ensures Split(CsvRow(o), ',') == RowCells(o)
  {
    StatusTextPlain(o.status);
    DecimalPlain(NumberOr(o.totalPrice, 0));
    var cells := RowCells(o);
    forall k | 0 <= k < |cells| ensures ',' !in cells[k] {
    }
    SplitJoin(cells, ',');
  }

  lemma RowHasNoNewline(o: Order)
    requires FreeOf(o, '\n')
    ensures '\n' !in CsvRow(o)
  {
    StatusTextPlain(o.status);
    DecimalPlain(NumberOr(o.totalPrice, 0));
    NotInJoin(RowCells(o), ',', '\n');
  }

  /** The header line splits back into the six column names. */
  lemma HeaderSplits()
    ensures Split(Join(CsvHeaders, ','), ',') == CsvHeaders
  {
    forall k | 0 <= k < |CsvHeaders| ensures ',' !in CsvHeaders[k] {
    }
    SplitJoin(CsvHeaders, ',');
  }

  /** The lines are the header line and then one row per order, in list order. */
  lemma CsvLinesShape(orders: seq<Order>)
    ensures |CsvLines(orders)| == |orders| + 1
    ensures Split(CsvLines(orders)[0], ',') == CsvHeaders
    ensures forall i :: 0 <= i < |orders| ==> CsvLines(orders)[i + 1] == CsvRow(orders[i])
  {
    HeaderSplits();
  }

  lemma LinesHaveNoNewline(orders: seq<Order>)
    requires forall i :: 0 <= i < |orders| ==> FreeOf(orders[i], '\n')
    ensures forall k :: 0 <= k < |CsvLines(orders)| ==> '\n' !in CsvLines(orders)[k]
  {
    var lines := CsvLines(orders);
    NotInJoin(CsvHeaders, ',', '\n');
    forall k | 0 <= k < |lines| ensures '\n' !in lines[k] {
      if k > 0 {
        assert lines[k] == CsvRow(orders[k - 1]);
        RowHasNoNewline(orders[k - 1]);
      }
    }
  }

  /** When no text field holds a line break, the export splits back into
      its lines: the header line and one row per order. */
  lemma ExportLines(orders: seq<Order>)
    requires |orders| > 0
    requires forall i :: 0 <= i < |orders| ==> FreeOf(orders[i], '\n')
    ensures ExportCsv(orders).Some?
    ensures Split(ExportCsv(orders).value[|CsvPrefix|..], '\n') == CsvLines(orders)
  {
    var lines := CsvLines(orders);
    LinesHaveNoNewline(orders);
    SplitJoin(lines, '\n');
    assert ExportCsv(orders).value[|CsvPrefix|..] == Join(lines, '\n');
  }

  // ---------------------------------------------------------------------------
  // The editor

  /** The draft the "Add New" button opens. */
  const NewOrderTemplate: Order := Order(
    id := None, orderCode := Some("LY-"), customerName := Some(""),
    customerPhone := None, customerAddress := None, productName := None,
    quantity := Some(1), totalPrice := Some(0), status := Some(ChinaStore),
    currentPhysicalLocation := None, updatedAt := None,
    customerLocation := None, driverLocation := None)

  /** Typing in the tracking-code field stores the upper-cased text and
      changes nothing else. */
  function EditCode(draft: Order, input: string): (d: Order)
    ensures d.orderCode == Some(ToUpper(input))
    ensures forall k :: 0 <= k < |input| ==> !('a' <= d.orderCode.value[k] <= 'z')
    ensures d.(orderCode := draft.orderCode) == draft
  {
    ToUpperIdempotent(input);
    draft.(orderCode := Some(ToUpper(input)))
  }

  /** The new-order template cannot be saved until a customer name is typed. */
  lemma NewOrderNeedsName(now: nat, isAr: bool)
    ensures Normalise(NewOrderTemplate, now, isAr).None?
  {
  }

  /** Once named, a new order saves with code `LY-`, a temporary id, status
      China_Store and its label as location, quantity 1 and price 0. */
  lemma NewOrderDefaults(name: string, now: nat, isAr: bool)
    requires name != ""
    ensures var r := Normalise(NewOrderTemplate.(customerName := Some(name)), now, isAr);
      && r.Some?
      && r.value.orderCode == Some("LY-")
      && r.value.id == Some(TempId(now))
      && r.value.status == Some(ChinaStore)
      && r.value.currentPhysicalLocation == Some(StatusLabel(isAr, ChinaStore))
      && r.value.quantity == Some(1)
      && r.value.totalPrice == Some(0)
  {
  }
}

=== FILE: domain.dfy ===
/** The shipment order as the front end holds it, and the JavaScript
    truthiness rules the code applies to its fields.

    Every field is optional: the objects the code handles are `Partial<Order>`
    edits, records mapped from the remote service (where any column may be
    `null`) and copies parsed back from the local mirror, and the code tests
    its fields with `||` wherever it reads them. `None` stands for a missing,
    `undefined` or `null` property, and for a number that is `NaN`. */
module Domain {
  import opened Wrappers

  /** The six shipment stages, in the order a shipment normally goes through them. */
  datatype OrderStatus =
    | ChinaStore
    | ChinaWarehouse
    | EnRoute
    | LibyaWarehouse
    | OutForDelivery
    | Delivered

  /** The identifier a status is stored and exported under. */
  function StatusName(s: OrderStatus): string {
    match s
    case ChinaStore => "China_Store"
    case ChinaWarehouse => "China_Warehouse"
    case EnRoute => "En_Route"
    case LibyaWarehouse => "Libya_Warehouse"
    case OutForDelivery => "Out_for_Delivery"
    case Delivered => "Delivered"
  }

  /** A position; the longitude is copied unchecked from the remote record,
      so it may be missing even when the latitude is present. */
  datatype Location = Location(lat: int, lng: Option<int>)

  datatype Order = Order(
    id: Option<string>,
    orderCode: Option<string>,
    customerName: Option<string>,
    customerPhone: Option<string>,
    customerAddress: Option<string>,
    productName: Option<string>,
    quantity: Option<int>,
    totalPrice: Option<int>,
    status: Option<OrderStatus>,
    currentPhysicalLocation: Option<string>,
    updatedAt: Option<int>,
    customerLocation: Option<Location>,
    driverLocation: Option<Location>)

  datatype AppNotification = AppNotification(
    id: Option<string>,
    orderCode: Option<string>,
    title: Option<string>,
    body: Option<string>,
    isRead: Option<bool>,
    timestamp: Option<int>)

  /** A string value is truthy when present and non-empty. */
  predicate IsTruthyText(s: Option<string>) {
    s.Some? && s.value != ""
  }

  /** A number is truthy when present, not `NaN` and non-zero. */
  predicate IsTruthyNumber(n: Option<int>) {
    n.Some? && n.value != 0
  }

  /** `s || fallback` on a string value. */
  function TextOr(s: Option<string>, fallback: string): string {
    if IsTruthyText(s) then s.value else fallback
  }

  /** `n || fallback` on a numeric value. */
  function NumberOr(n: Option<int>, fallback: int): int {
    if IsTruthyNumber(n) then n.value else fallback
  }

  /** A string value as a template literal renders it. A missing value
      renders as `undefined`; the model does not tell `null` (which renders
      as `null`) from a missing value. */
  function Rendered(s: Option<string>): string {
    s.GetOr("undefined")
  }
}

=== FILE: seqs.dfy ===
/** The list operations the order logic is built from (JavaScript's `filter`,
    `findIndex`, `map`, `join` and `split`), each with its specification and
    the lemmas the rest of the model relies on. */
module Seqs {
  import opened Wrappers

  /** `a` is obtained from `b` by deleting elements, the rest kept in order. */
  predicate IsSubsequence<T(==)>(a: seq<T>, b: seq<T>)
    decreases |b|
  {
    if |a| == 0 then true
    else if |b| == 0 then false
    else (a[0] == b[0] && IsSubsequence(a[1..], b[1..])) || IsSubsequence(a, b[1..])
  }

  /** `Array.prototype.filter`: the elements of `s` that `keep` accepts. */
  function Filter<T(==,!new)>(s: seq<T>, keep: T -> bool): (r: seq<T>)
    ensures |r| <= |s|
    ensures forall x :: x in r <==> x in s && keep(x)
  {
    if |s| == 0 then []
    else (if keep(s[0]) then [s[0]] else []) + Filter(s[1..], keep)
  }

  lemma {:induction false} FilterIsSubsequence<T(!new)>(s: seq<T>, keep: T -> bool)
    ensures IsSubsequence(Filter(s, keep), s)
  {
    if |s| > 0 {
      FilterIsSubsequence(s[1..], keep);
      var r := Filter(s, keep);
      if keep(s[0]) {
        assert r == [s[0]] + Filter(s[1..], keep);
        assert r[1..] == Filter(s[1..], keep);
      } else {
        assert r == Filter(s[1..], keep);
        if |r| > 0 {
          assert IsSubsequence(r, s[1..]);
        }
      }
    }
  }

  /** Filtering distributes over concatenation, so relative order is kept. */
  lemma {:induction false} FilterAppend<T(!new)>(a: seq<T>, b: seq<T>, keep: T -> bool)
    ensures Filter(a + b, keep) == Filter(a, keep) + Filter(b, keep)
  {
    if |a| > 0 {
      assert (a + b)[1..] == a[1..] + b;
      FilterAppend(a[1..], b, keep);
    } else {
      assert a + b == b;
    }
  }

  /** Filtering a second time with the same test changes nothing. */
  lemma {:induction false} FilterTwice<T(!new)>(s: seq<T>, keep: T -> bool)
    ensures Filter(Filter(s, keep), keep) == Filter(s, keep)
  {
    if |s| > 0 {
      FilterTwice(s[1..], keep);
      if keep(s[0]) {
        var r := Filter(s, keep);
        assert r == [s[0]] + Filter(s[1..], keep);
        assert r[0] == s[0] && r[1..] == Filter(s[1..], keep);
        calc {
          Filter(r, keep);
          [r[0]] + Filter(r[1..], keep);
          [s[0]] + Filter(Filter(s[1..], keep), keep);
          [s[0]] + Filter(s[1..], keep);
        }
      } else {
        assert Filter(s, keep) == Filter(s[1..], keep);
      }
    }
  }

  /** A test that accepts every element keeps the whole list. */
  lemma {:induction false} FilterKeepsAll<T(!new)>(s: seq<T>, keep: T -> bool)
    requires forall i :: 0 <= i < |s| ==> keep(s[i])
    ensures Filter(s, keep) == s
  {
    if |s| > 0 {
      FilterKeepsAll(s[1..], keep);
      assert [s[0]] + s[1..] == s;
    }
  }

  /** `Array.prototype.findIndex`: the first index whose element satisfies `p`. */
  function FirstIndex<T>(s: seq<T>, p: T -> bool): (r: Option<nat>)
    ensures r.Some? ==> r.value < |s| && p(s[r.value])
    ensures r.Some? ==> forall j :: 0 <= j < r.value ==> !p(s[j])
    ensures r.None? ==> forall j :: 0 <= j < |s| ==> !p(s[j])
  {
    if |s| == 0 then None
    else if p(s[0]) then Some(0)
    else match FirstIndex(s[1..], p)
      case None => None
      case Some(i) => Some(i + 1)
  }

  /** An index whose element is the first to satisfy `p` is the one `FirstIndex` finds. */
  lemma FirstIndexUnique<T>(s: seq<T>, p: T -> bool, i: int)
    requires 0 <= i < |s| && p(s[i])
    requires forall j :: 0 <= j < i ==> !p(s[j])
    ensures FirstIndex(s, p) == Some(i)
  {
    var k := FirstIndex(s, p);
    assert k.Some?;
    assert !(k.value < i);
  }

  /** `Array.prototype.map`. */
  function Map<A, B>(s: seq<A>, f: A -> B): (r: seq<B>)
    ensures |r| == |s|
    ensures forall i :: 0 <= i < |s| ==> r[i] == f(s[i])
  {
    if |s| == 0 then [] else [f(s[0])] + Map(s[1..], f)
  }

  /** `Array.prototype.join`: the parts with one `sep` between neighbours. */
  function Join<T>(parts: seq<seq<T>>, sep: T): seq<T>
  {
    if |parts| == 0 then []
    else if |parts| == 1 then parts[0]
    else parts[0] + [sep] + Join(parts[1..], sep)
  }

  /** `String.prototype.split` on a single separator: the maximal runs without it. */
  function Split<T(==)>(s: seq<T>, sep: T): (parts: seq<seq<T>>)
    ensures |parts| >= 1
    ensures forall k :: 0 <= k < |parts| ==> sep !in parts[k]
    decreases |s|
  {
    if |s| == 0 then [[]]
    else
      var rest := Split(s[1..], sep);
      if s[0] == sep then [[]] + rest
      else [[s[0]] + rest[0]] + rest[1..]
  }

  lemma {:induction false} SplitWithoutSeparator<T>(p: seq<T>, sep: T)
    requires sep !in p
    ensures Split(p, sep) == [p]
  {
    if |p| > 0 {
      SplitWithoutSeparator(p[1..], sep);
      assert [p[0]] + p[1..] == p;
    }
  }

  lemma {:induction false} SplitAfterPart<T>(p: seq<T>, t: seq<T>, sep: T)
    requires sep !in p
    ensures Split(p + [sep] + t, sep) == [p] + Split(t, sep)
  {
    var s := p + [sep] + t;
    if |p| == 0 {
      assert s[0] == sep && s[1..] == t;
    } else {
      assert s[0] == p[0] && s[1..] == p[1..] + [sep] + t;
      SplitAfterPart(p[1..], t, sep);
      assert [p[0]] + p[1..] == p;
    }
  }

  /** Splitting a join on its separator gives the parts back, provided no part
      holds the separator. */
  lemma {:induction false} SplitJoin<T>(parts: seq<seq<T>>, sep: T)
    requires |parts| >= 1
    requires forall k :: 0 <= k < |parts| ==> sep !in parts[k]
    ensures Split(Join(parts, sep), sep) == parts
  {
    if |parts| == 1 {
      SplitWithoutSeparator(parts[0], sep);
    } else {
      SplitJoin(parts[1..], sep);
      SplitAfterPart(parts[0], Join(parts[1..], sep), sep);
      assert [parts[0]] + parts[1..] == parts;
    }
  }

  /** A value that is neither the separator nor inside any part is not in the join. */
  lemma {:induction false} NotInJoin<T>(parts: seq<seq<T>>, sep: T, x: T)
    requires x != sep
    requires forall k :: 0 <= k < |parts| ==> x !in parts[k]
    ensures x !in Join(parts, sep)
  {
    if |parts| > 1 {
      NotInJoin(parts[1..], sep, x);
    }
  }
}

=== FILE: store.dfy ===
/** The data-access layer of `store.ts`: the readiness test, the REST request
    wrapper and its response classification, the mapping between the wire
    schema and the domain order, and the local mirror kept by `fetchOrders`,
    `syncOrder` and `deleteOrder`.

    The mirror (one `localStorage` slot) is a value `Option<seq<Order>>`,
    `None` while the slot is empty. The remote service is not modelled:
    each call it would answer is an `HttpOutcome` input, and every request
    the code sends is recorded, in order, in the result. */
module Store {
  import opened Wrappers
  import opened Seqs
  import opened Text
  import opened Domain

  // ---------------------------------------------------------------------------
  // Configuration

  /** The settings `store.ts` reads from its configuration object. */
  datatype DbConfig = DbConfig(enabled: bool, url: Option<string>, key: Option<string>)

  /** The marker of the template URL that has not been filled in. */
  const PlaceholderRef: string := "YOUR_PROJECT_REF"

  /** A remote call is attempted only when the service is enabled, the URL is
      set and filled in, and a key is set. */
  predicate IsConfigReady(cfg: DbConfig) {
    && cfg.enabled
    && IsTruthyText(cfg.url)
    && !Contains(cfg.url.value, PlaceholderRef)
    && IsTruthyText(cfg.key)
  }

  /** The URL the repository ships with. */
  const ShippedUrl: string := "https://YOUR_PROJECT_REF.supabase.co"

  /** With the URL as shipped no remote call is ever made, whatever the key. */
  lemma ShippedUrlNeverReady(enabled: bool, key: Option<string>)
    ensures !IsConfigReady(DbConfig(enabled, Some(ShippedUrl), key))
  {
    assert ShippedUrl == "https://" + PlaceholderRef + ".supabase.co";
    assert ShippedUrl[8..8 + |PlaceholderRef|] == PlaceholderRef;
    assert OccursAt(PlaceholderRef, ShippedUrl, 8);
  }

  /** The configuration object as shipped declares a publishable and a secret
      key but no `key` property, which is the one read here: without it no
      remote call is made, whatever the URL. */
  lemma MissingKeyNeverReady(enabled: bool, url: Option<string>)
    ensures !IsConfigReady(DbConfig(enabled, url, None))
  {
  }

  // ---------------------------------------------------------------------------
  // Requests

  datatype HttpMethod = Get | Post | Patch | Delete

  datatype Header = Header(name: string, value: string)

  /** A request as handed to `fetch`; the body is the JSON record sent, if any. */
  datatype HttpRequest = HttpRequest(verb: HttpMethod, url: string, headers: seq<Header>, body: Option<WireOrder>)

  const RestPath: string := "/rest/v1/"

  /** The request URL: the table's REST path, then the query when there is
      one, `select=*` for a GET without one, and nothing otherwise. */
  function RequestUrl(base: string, table: string, verb: HttpMethod, query: string): (url: string)
    ensures base + RestPath + table <= url
    ensures query != "" ==> url == base + RestPath + table + "?" + query
    ensures query == "" && verb == Get ==> url == base + RestPath + table + "?select=*"
    ensures query == "" && verb != Get ==> url == base + RestPath + table
  {
    base + RestPath + table + (if query != "" then "?" + query else if verb == Get then "?select=*" else "")
  }

  predicate IsQueryMark(c: char) { c == '?' }

  /** What a server reads as the query string: the text after the first `?`. */
  function QueryOf(url: string): Option<string> {
    match FirstIndex(url, IsQueryMark)
    case None => None
    case Some(i) => Some(url[i + 1..])
  }

  /** The query string the server sees is the one the caller asked for (or
      `select=*` for a plain GET), provided base URL and table hold no `?`. */
  lemma RequestUrlQuery(base: string, table: string, verb: HttpMethod, query: string)
    requires '?' !in base + RestPath + table
    ensures QueryOf(RequestUrl(base, table, verb, query)) ==
      if query != "" then Some(query)
      else if verb == Get then Some("select=*")
      else None
  {
    var prefix := base + RestPath + table;
    var url := RequestUrl(base, table, verb, query);
    assert forall j :: 0 <= j < |prefix| ==> url[j] == prefix[j];
    if query != "" || verb == Get {
      var rest := if query != "" then query else "select=*";
      assert url == prefix + "?" + rest;
      assert url[|prefix|] == '?';
      assert FirstIndex(url, IsQueryMark) == Some(|prefix|);
      assert url[|prefix| + 1..] == rest;
    } else {
      assert url == prefix;
    }
  }

  /** `headers` carries a header called `name`. */
  predicate HasHeader(headers: seq<Header>, name: string) {
    exists i :: 0 <= i < |headers| && headers[i].name == name
  }

  /** The key is sent both as `apikey` and as a bearer token; only a POST
      asks for the created record back. */
  function RequestHeaders(key: string, verb: HttpMethod): (h: seq<Header>)
    ensures |h| == if verb == Post then 4 else 3
    ensures Header("apikey", key) in h
    ensures Header("Authorization", "Bearer " + key) in h
    ensures Header("Content-Type", "application/json") in h
    ensures HasHeader(h, "Prefer") <==> verb == Post
    ensures verb == Post ==> Header("Prefer", "return=representation") in h
  {
    var common := [Header("apikey", key), Header("Authorization", "Bearer " + key), Header("Content-Type", "application/json")];
    if verb == Post then
      var h := common + [Header("Prefer", "return=representation")];
      assert h[3].name == "Prefer";
      h
    else common
  }

  // ---------------------------------------------------------------------------
  // Responses

  /** A parsed JSON body: an array of records, or any other value, of which
      only whether its `length` compares greater than zero matters here (true
      of a non-empty string, false of a number or a plain object). */
  datatype WireData<T> = WireArray(items: seq<T>) | WireNonArray(positiveLength: bool)

  /** How a call ends: `fetch` rejects, or a status arrives with a body that
      parses (`Some`) or makes `response.json()` throw (`None`). */
  datatype HttpOutcome<T> = NetworkError | Responded(status: int, json: Option<WireData<T>>)

  /** What the request wrapper resolves to: `null`, or parsed data. */
  datatype RequestResult<T> = Null | Data(data: WireData<T>)

  /** `response.ok`. */
  predicate IsOk(status: int) { 200 <= status <= 299 }

  /** A failure of any kind resolves to `null`; a 204 to an empty array;
      any other success to the parsed body. */
  function Classify<T>(outcome: HttpOutcome<T>): (r: RequestResult<T>)
    ensures r.Data? ==> outcome.Responded? && IsOk(outcome.status)
    ensures outcome.Responded? && outcome.status == 204 ==> r == Data(WireArray([]))
    ensures outcome.Responded? && IsOk(outcome.status) && outcome.status != 204 ==>
      (r.Data? <==> outcome.json.Some?) && (r.Data? ==> r.data == outcome.json.value)
  {
    match outcome
    case NetworkError => Null
    case Responded(status, json) =>
      if !IsOk(status) then Null
      else if status == 204 then Data(WireArray([]))
      else if json.Some? then Data(json.value)
      else Null
  }

  /** One call of the request wrapper: the request it sends, if any, and what it resolves to. */
  datatype Exchange<T> = Exchange(sent: Option<HttpRequest>, result: RequestResult<T>)

  /** `supabaseRequest`: nothing is sent and `null` comes back unless the
      configuration is ready; otherwise the request goes out and its outcome
      is classified. */
  function SupabaseRequest<T>(cfg: DbConfig, table: string, verb: HttpMethod, body: Option<WireOrder>, query: string, outcome: HttpOutcome<T>): (x: Exchange<T>)
    ensures x.sent.None? <==> !IsConfigReady(cfg)
    ensures x.sent.None? ==> x.result.Null?
    ensures x.sent.Some? ==> x.result == Classify(outcome)
    ensures x.sent.Some? ==> var r := x.sent.value;
      r.verb == verb && r.body == body
      && r.url == RequestUrl(cfg.url.value, table, verb, query)
      && r.headers == RequestHeaders(cfg.key.value, verb)
  {
    if !IsConfigReady(cfg) then Exchange(None, Null)
    else
      var request := HttpRequest(verb, RequestUrl(cfg.url.value, table, verb, query), RequestHeaders(cfg.key.value, verb), body);
      Exchange(Some(request), Classify(outcome))
  }

  /** Every request in `sent` carries the headers `supabaseRequest` builds
      for its verb with `key`. */
  predicate SignedWith(key: string, sent: seq<HttpRequest>) {
    forall k :: 0 <= k < |sent| ==> sent[k].headers == RequestHeaders(key, sent[k].verb)
  }

  lemma SignedConcat(key: string, a: seq<HttpRequest>, b: seq<HttpRequest>)
    requires SignedWith(key, a) && SignedWith(key, b)
    ensures SignedWith(key, a + b)
  {
  }

  /** The requests an exchange sent, as a list. */
  function SentList<T>(x: Exchange<T>): seq<HttpRequest> {
    if x.sent.Some? then [x.sent.value] else []
  }

  // ---------------------------------------------------------------------------
  // Wire schema

  /** An `orders` row as the service stores it (snake_case columns). */
  datatype WireOrder = WireOrder(
    id: Option<string>,
    order_code: Option<string>,
    customer_name: Option<string>,
    customer_phone: Option<string>,
    customer_address: Option<string>,
    product_name: Option<string>,
    quantity: Option<int>,
    total_price: Option<int>,
    status: Option<OrderStatus>,
    current_location: Option<string>,
    updated_at: Option<int>,
    customer_lat: Option<int>,
    customer_lng: Option<int>,
    driver_lat: Option<int>,
    driver_lng: Option<int>)

  /** The position a latitude/longitude pair denotes: present exactly when the latitude is truthy. */
  function PositionOf(lat: Option<int>, lng: Option<int>): (p: Option<Location>)
    ensures p.Some? <==> IsTruthyNumber(lat)
    ensures p.Some? ==> p.value == Location(lat.value, lng)
  {
    if IsTruthyNumber(lat) then Some(Location(lat.value, lng)) else None
  }

  /** The record-to-order mapping of `fetchOrders`. */
  function FromWire(w: WireOrder): (o: Order)
    ensures o.(customerLocation := None, driverLocation := None) ==
      Order(w.id, w.order_code, w.customer_name, w.customer_phone, w.customer_address, w.product_name,
            w.quantity, w.total_price, w.status, w.current_location, w.updated_at, None, None)
    ensures o.customerLocation.Some? <==> IsTruthyNumber(w.customer_lat)
    ensures o.customerLocation.Some? ==> o.customerLocation.value == Location(w.customer_lat.value, w.customer_lng)
    ensures o.driverLocation.Some? <==> IsTruthyNumber(w.driver_lat)
    ensures o.driverLocation.Some? ==> o.driverLocation.value == Location(w.driver_lat.value, w.driver_lng)
  {
    Order(
      id := w.id,
      orderCode := w.order_code,
      customerName := w.customer_name,
      customerPhone := w.customer_phone,
      customerAddress := w.customer_address,
      productName := w.product_name,
      quantity := w.quantity,
      totalPrice := w.total_price,
      status := w.status,
      currentPhysicalLocation := w.current_location,
      updatedAt := w.updated_at,
      customerLocation := PositionOf(w.customer_lat, w.customer_lng),
      driverLocation := PositionOf(w.driver_lat, w.driver_lng))
  }

  /** The record `syncOrder` writes for `order` at time `now`: no identity,
      no positions, and the location text defaulted to the empty string. */
  function ToWire(order: Order, now: int): (w: WireOrder)
    ensures w.id.None? && w.updated_at == Some(now)
    ensures w.customer_lat.None? && w.customer_lng.None? && w.driver_lat.None? && w.driver_lng.None?
    ensures w.current_location.Some? && (w.current_location.value == "" <==> !IsTruthyText(order.currentPhysicalLocation))
  {
    WireOrder(
      id := None,
      order_code := order.orderCode,
      customer_name := order.customerName,
      customer_phone := order.customerPhone,
      customer_address := order.customerAddress,
      product_name := order.productName,
      quantity := order.quantity,
      total_price := order.totalPrice,
      status := order.status,
      current_location := Some(TextOr(order.currentPhysicalLocation, "")),
      updated_at := Some(now),
      customer_lat := None,
      customer_lng := None,
      driver_lat := None,
      driver_lng := None)
  }

  /** Writing an order and reading the record back restores every field the
      wire schema carries; the identity and the positions are not sent, the
      write time replaces `updatedAt`, and a missing location text comes
      back as the empty string. */
  lemma WireRoundTrip(order: Order, now: int)
    ensures FromWire(ToWire(order, now)) == order.(
      id := None,
      updatedAt := Some(now),
      currentPhysicalLocation := Some(TextOr(order.currentPhysicalLocation, "")),
      customerLocation := None,
      driverLocation := None)
  {
  }

  // ---------------------------------------------------------------------------
  // fetchOrders

  /** What a read of the repository returns, what the mirror holds afterwards,
      and the requests it sent. */
  datatype Fetched = Fetched(orders: seq<Order>, cache: Option<seq<Order>>, sent: seq<HttpRequest>)

  /** The mirror as read back: its list, or the empty list when it is empty. */
  function CachedOrEmpty(cache: Option<seq<Order>>): seq<Order> {
    cache.GetOr([])
  }

  /** `fetchOrders`: a remote array replaces the mirror and is returned;
      anything else falls back to the mirror, untouched. */
  function FetchOrders(cfg: DbConfig, cache: Option<seq<Order>>, outcome: HttpOutcome<WireOrder>): (f: Fetched)
    ensures f.orders == CachedOrEmpty(f.cache)
    ensures !IsConfigReady(cfg) ==> f == Fetched(CachedOrEmpty(cache), cache, [])
    ensures IsConfigReady(cfg) ==> SignedWith(cfg.key.value, f.sent)
    ensures IsConfigReady(cfg) ==>
      (|f.sent| == 1 && f.sent[0].verb == Get && f.sent[0].body.None?
       && f.sent[0].url == cfg.url.value + RestPath + "orders" + "?select=*")
    ensures IsConfigReady(cfg) && Classify(outcome).Data? && Classify(outcome).data.WireArray? ==>
      var items := Classify(outcome).data.items;
      f.cache.Some? && |f.orders| == |items| && forall i :: 0 <= i < |items| ==> f.orders[i] == FromWire(items[i])
    ensures !(IsConfigReady(cfg) && Classify(outcome).Data? && Classify(outcome).data.WireArray?) ==>
      f.cache == cache
  {
    var x := SupabaseRequest(cfg, "orders", Get, None, "", outcome);
    if x.result.Data? && x.result.data.WireArray? then
      var orders := Map(x.result.data.items, FromWire);
      Fetched(orders, Some(orders), SentList(x))
    else
      Fetched(CachedOrEmpty(cache), cache, SentList(x))
  }

  // ---------------------------------------------------------------------------
  // syncOrder

  /** The entry `syncOrder` treats as the stored copy of `order`: same
      identity or same tracking code. */
  predicate SameRecord(entry: Order, order: Order) {
    entry.id == order.id || entry.orderCode == order.orderCode
  }

  function RecordOf(order: Order): Order -> bool {
    entry => SameRecord(entry, order)
  }

  /** `{ ...order, updatedAt: Date.now() }`. */
  function Stamp(order: Order, now: int): Order {
    order.(updatedAt := Some(now))
  }

  /** `i` is the first position holding a copy of `order`. */
  ghost predicate IsFirstMatch(orders: seq<Order>, order: Order, i: int) {
    && 0 <= i < |orders|
    && SameRecord(orders[i], order)
    && forall j :: 0 <= j < i ==> !SameRecord(orders[j], order)
  }

  /** `findIndex` with the same-record test finds exactly the first match. */
  lemma FindsFirstMatch(orders: seq<Order>, order: Order)
    ensures forall i :: IsFirstMatch(orders, order, i) ==> FirstIndex(orders, RecordOf(order)) == Some(i)
    ensures FirstIndex(orders, RecordOf(order)).None? ==> forall i :: 0 <= i < |orders| ==> !SameRecord(orders[i], order)
    ensures FirstIndex(orders, RecordOf(order)).Some? ==> IsFirstMatch(orders, order, FirstIndex(orders, RecordOf(order)).value)
  {
    var p := RecordOf(order);
    forall i | IsFirstMatch(orders, order, i) ensures FirstIndex(orders, p) == Some(i) {
      FirstIndexUnique(orders, p, i);
    }
  }

  /** The local upsert of `syncOrder`: the first copy of the order is
      replaced in place, or the order is put in front when there is none. */
  function Upsert(orders: seq<Order>, order: Order, now: int): (r: seq<Order>)
    ensures forall i :: IsFirstMatch(orders, order, i) ==>
      && |r| == |orders|
      && r[i] == Stamp(order, now)
      && forall j :: 0 <= j < |orders| && j != i ==> r[j] == orders[j]
    ensures (forall i :: 0 <= i < |orders| ==> !SameRecord(orders[i], order)) ==>
      r == [Stamp(order, now)] + orders
    ensures Stamp(order, now) in r
  {
    FindsFirstMatch(orders, order);
    match FirstIndex(orders, RecordOf(order))
    case Some(i) => orders[i := Stamp(order, now)]
    case None => [Stamp(order, now)] + orders
  }

  /** After the upsert the mirror holds an entry with the saved tracking code. */
  lemma UpsertHoldsCode(orders: seq<Order>, order: Order, now: int)
    ensures exists k :: 0 <= k < |Upsert(orders, order, now)| && Upsert(orders, order, now)[k].orderCode == order.orderCode
  {
    var r := Upsert(orders, order, now);
    var k :| 0 <= k < |r| && r[k] == Stamp(order, now);
    assert r[k].orderCode == order.orderCode;
  }

  /** Saving the same order twice at the same time changes nothing the second time. */
  lemma UpsertIdempotent(orders: seq<Order>, order: Order, now: int)
    ensures Upsert(Upsert(orders, order, now), order, now) == Upsert(orders, order, now)
  {
    var r := Upsert(orders, order, now);
    var s := Stamp(order, now);
    assert SameRecord(s, order);
    match FirstIndex(orders, RecordOf(order))
    case Some(i) =>
      assert IsFirstMatch(orders, order, i);
      assert IsFirstMatch(r, order, i);
      assert Upsert(r, order, now) == r;
    case None =>
      assert r == [s] + orders;
      assert IsFirstMatch(r, order, 0);
      assert Upsert(r, order, now) == r;
  }

  /** Saving an order under a tracking code already in the list replaces an
      entry instead of adding one: no duplicate appears. */
  lemma SameCodeNoDuplicate(orders: seq<Order>, first: Order, second: Order, t1: int, t2: int)
    requires first.orderCode == second.orderCode
    ensures |Upsert(Upsert(orders, first, t1), second, t2)| == |Upsert(orders, first, t1)|
  {
    var r := Upsert(orders, first, t1);
    var k :| 0 <= k < |r| && r[k] == Stamp(first, t1);
    assert SameRecord(r[k], second);
    var i := FirstIndex(r, RecordOf(second));
    assert i.Some?;
    assert IsFirstMatch(r, second, i.value);
  }

  /** `check && check.length > 0`: the existence check found the order. */
  predicate FoundRemotely(check: RequestResult<WireOrder>) {
    match check
    case Null => false
    case Data(WireArray(items)) => |items| > 0
    case Data(WireNonArray(positiveLength)) => positiveLength
  }

  /** The filter that selects rows by tracking code. */
  function CodeQuery(order: Order): string {
    "order_code=eq." + Rendered(order.orderCode)
  }

  /** What a mutation leaves in the mirror, and the requests it sent. */
  datatype Effect = Effect(cache: Option<seq<Order>>, sent: seq<HttpRequest>)

  /** The remote half of `syncOrder` on a ready service: look the tracking
      code up, then PATCH the rows found or POST a new row. */
  function SyncRequests(cfg: DbConfig, order: Order, now: int, checkOutcome: HttpOutcome<WireOrder>): (sent: seq<HttpRequest>)
    requires IsConfigReady(cfg)
    ensures SignedWith(cfg.key.value, sent)
    ensures |sent| == 2
    ensures sent[0].verb == Get && sent[0].body.None?
    ensures sent[0].url == cfg.url.value + RestPath + "orders" + "?" + CodeQuery(order)
    ensures sent[1].body == Some(ToWire(order, now))
    ensures FoundRemotely(Classify(checkOutcome)) ==>
      sent[1].verb == Patch && sent[1].url == cfg.url.value + RestPath + "orders" + "?" + CodeQuery(order)
    ensures !FoundRemotely(Classify(checkOutcome)) ==>
      sent[1].verb == Post && sent[1].url == cfg.url.value + RestPath + "orders"
  {
    var record := ToWire(order, now);
    var check := SupabaseRequest(cfg, "orders", Get, None, CodeQuery(order), checkOutcome);
    var write :=
      if FoundRemotely(check.result) then SupabaseRequest<WireOrder>(cfg, "orders", Patch, Some(record), CodeQuery(order), NetworkError)
      else SupabaseRequest<WireOrder>(cfg, "orders", Post, Some(record), "", NetworkError);
    [check.sent.value, write.sent.value]
  }

  /** `syncOrder`: read the repository, upsert the order locally and write
      the mirror; then, if the service is ready, look the tracking code up
      and PATCH the rows found or POST a new one. The outcome of the write
      itself is ignored. */
  function SyncOrder(cfg: DbConfig, cache: Option<seq<Order>>, order: Order, now: int,
                     fetchOutcome: HttpOutcome<WireOrder>, checkOutcome: HttpOutcome<WireOrder>): (e: Effect)
    ensures e.cache == Some(Upsert(FetchOrders(cfg, cache, fetchOutcome).orders, order, now))
    ensures !IsConfigReady(cfg) ==> e.sent == []
    ensures IsConfigReady(cfg) ==> SignedWith(cfg.key.value, e.sent)
    ensures IsConfigReady(cfg) ==>
      (|e.sent| == 3
       && e.sent[0].verb == Get && e.sent[0].body.None?
       && e.sent[0].url == cfg.url.value + RestPath + "orders" + "?select=*"
       && e.sent[1].verb == Get && e.sent[1].body.None?
       && e.sent[1].url == cfg.url.value + RestPath + "orders" + "?" + CodeQuery(order)
       && e.sent[2].body == Some(ToWire(order, now)))
    ensures IsConfigReady(cfg) && FoundRemotely(Classify(checkOutcome)) ==>
      e.sent[2].verb == Patch && e.sent[2].url == cfg.url.value + RestPath + "orders" + "?" + CodeQuery(order)
    ensures IsConfigReady(cfg) && !FoundRemotely(Classify(checkOutcome)) ==>
      e.sent[2].verb == Post && e.sent[2].url == cfg.url.value + RestPath + "orders"
  {
    var fetched := FetchOrders(cfg, cache, fetchOutcome);
    var updated := Upsert(fetched.orders, order, now);
    if !IsConfigReady(cfg) then Effect(Some(updated), fetched.sent)
    else
      var remote := SyncRequests(cfg, order, now, checkOutcome);
      SignedConcat(cfg.key.value, fetched.sent, remote);
      Effect(Some(updated), fetched.sent + remote)
  }

  /** Cache survives an outage: after a save, a read that cannot reach the
      service still returns the saved order. */
  lemma SavedOrderSurvivesOutage(cfg: DbConfig, cache: Option<seq<Order>>, order: Order, now: int,
                                 fetchOutcome: HttpOutcome<WireOrder>, checkOutcome: HttpOutcome<WireOrder>)
    ensures Stamp(order, now) in FetchOrders(cfg, SyncOrder(cfg, cache, order, now, fetchOutcome, checkOutcome).cache, NetworkError).orders
  {
  }

  // ---------------------------------------------------------------------------
  // deleteOrder

  function OtherThan(id: Option<string>): Order -> bool {
    (entry: Order) => entry.id != id
  }

  /** The local step of `deleteOrder`: drop every entry with identity `id`. */
  function RemoveId(orders: seq<Order>, id: Option<string>): (r: seq<Order>)
    ensures forall o :: o in r ==> o.id != id
    ensures forall o :: o in orders && o.id != id ==> o in r
    ensures IsSubsequence(r, orders)
  {
    FilterIsSubsequence(orders, OtherThan(id));
    Filter(orders, OtherThan(id))
  }

  /** Deleting the same identity twice is deleting it once. */
  lemma RemoveIdTwice(orders: seq<Order>, id: Option<string>)
    ensures RemoveId(RemoveId(orders, id), id) == RemoveId(orders, id)
  {
    FilterTwice(orders, OtherThan(id));
  }

  /** Removal keeps relative order: it distributes over concatenation. */
  lemma RemoveIdAppend(a: seq<Order>, b: seq<Order>, id: Option<string>)
    ensures RemoveId(a + b, id) == RemoveId(a, id) + RemoveId(b, id)
  {
    FilterAppend(a, b, OtherThan(id));
  }

  /** The remote half of `deleteOrder` on a ready service: a DELETE of the
      rows with that identity. */
  function DeleteRequest(cfg: DbConfig, id: Option<string>): (r: HttpRequest)
    requires IsConfigReady(cfg)
    ensures r.headers == RequestHeaders(cfg.key.value, r.verb)
    ensures r.verb == Delete && r.body.None?
    ensures r.url == cfg.url.value + RestPath + "orders" + "?" + "id=eq." + Rendered(id)
  {
    SupabaseRequest<WireOrder>(cfg, "orders", Delete, None, "id=eq." + Rendered(id), NetworkError).sent.value
  }

  /** `deleteOrder`: read the repository, drop the identity from the mirror
      and, if the service is ready, send a DELETE filtered by identity. */
  function DeleteOrder(cfg: DbConfig, cache: Option<seq<Order>>, id: Option<string>, fetchOutcome: HttpOutcome<WireOrder>): (e: Effect)
    ensures e.cache == Some(RemoveId(FetchOrders(cfg, cache, fetchOutcome).orders, id))
    ensures !IsConfigReady(cfg) ==> e.sent == []
    ensures IsConfigReady(cfg) ==> SignedWith(cfg.key.value, e.sent)
    ensures IsConfigReady(cfg) ==>
      (|e.sent| == 2
       && e.sent[0].verb == Get && e.sent[0].body.None?
       && e.sent[0].url == cfg.url.value + RestPath + "orders" + "?select=*"
       && e.sent[1].verb == Delete && e.sent[1].body.None?
       && e.sent[1].url == cfg.url.value + RestPath + "orders" + "?" + "id=eq." + Rendered(id))
  {
    var fetched := FetchOrders(cfg, cache, fetchOutcome);
    var updated := RemoveId(fetched.orders, id);
    if IsConfigReady(cfg) then
      var remote := DeleteRequest(cfg, id);
      SignedConcat(cfg.key.value, fetched.sent, [remote]);
      Effect(Some(updated), fetched.sent + [remote])
    else Effect(Some(updated), fetched.sent)
  }

  /** After a delete, a read that cannot reach the service shows no entry with that identity. */
  lemma DeletedOrderStaysGoneOffline(cfg: DbConfig, cache: Option<seq<Order>>, id: Option<string>, fetchOutcome: HttpOutcome<WireOrder>)
    ensures forall o :: o in FetchOrders(cfg, DeleteOrder(cfg, cache, id, fetchOutcome).cache, NetworkError).orders ==> o.id != id
  {
  }

  // ---------------------------------------------------------------------------
  // fetchNotifications

  /** A `notifications` row as the service stores it. */
  datatype WireNotification = WireNotification(
    id: Option<string>,
    order_code: Option<string>,
    title: Option<string>,
    body: Option<string>,
    is_read: Option<bool>,
    created_at: Option<int>)

  function FromWireNotification(n: WireNotification): AppNotification {
    AppNotification(n.id, n.order_code, n.title, n.body, n.is_read, n.created_at)
  }

  /** `fetchNotifications`: the remote array field by field, or the empty
      list in every other case. */
  function FetchNotifications(cfg: DbConfig, outcome: HttpOutcome<WireNotification>): (ns: seq<AppNotification>)
    ensures !IsConfigReady(cfg) ==> ns == []
    ensures IsConfigReady(cfg) && Classify(outcome).Data? && Classify(outcome).data.WireArray? ==>
      var items := Classify(outcome).data.items;
      |ns| == |items| && forall i :: 0 <= i < |items| ==>
        && ns[i].id == items[i].id && ns[i].orderCode == items[i].order_code
        && ns[i].title == items[i].title && ns[i].body == items[i].body
        && ns[i].isRead == items[i].is_read && ns[i].timestamp == items[i].created_at
    ensures !(Classify(outcome).Data? && Classify(outcome).data.WireArray?) ==> ns == []
  {
    var x := SupabaseRequest(cfg, "notifications", Get, None, "", outcome);
    if x.result.Data? && x.result.data.WireArray? then Map(x.result.data.items, FromWireNotification)
    else []
  }
}

=== FILE: text.dfy ===
/** The string operations the views use: `trim`, `toUpperCase`/`toLowerCase`,
    `includes`, and the decimal rendering JavaScript applies to an integer in a
    template literal or a `join`. */
module Text {

  /** The characters `String.prototype.trim` removes: the WhiteSpace and
      LineTerminator code points of ECMA-262. */
  predicate IsSpace(c: char) {
    || c == ' ' || c == '\t' || c == '\n' || c == '\r' || c == '\U{B}' || c == '\U{C}'
    || c == '\U{A0}' || c == '\U{1680}' || ('\U{2000}' <= c <= '\U{200A}')
    || c == '\U{2028}' || c == '\U{2029}' || c == '\U{202F}' || c == '\U{205F}'
    || c == '\U{3000}' || c == '\U{FEFF}'
  }

  /** Every character of `s` in positions `lo` up to (not including) `hi` is a space. */
  ghost predicate AllSpace(s: string, lo: int, hi: int)
    requires 0 <= lo <= hi <= |s|
  {
    forall k :: lo <= k < hi ==> IsSpace(s[k])
  }

  /** Neither end of `s` is a space character. */
  predicate IsTrimmed(s: string) {
    |s| == 0 || (!IsSpace(s[0]) && !IsSpace(s[|s| - 1]))
  }

  /** Cutting `s` at `i` and `j` removes only space characters and leaves
      an infix that is trimmed. */
  ghost predicate TrimsTo(s: string, i: int, j: int) {
    && 0 <= i <= j <= |s|
    && AllSpace(s, 0, i)
    && AllSpace(s, j, |s|)
    && (i < j ==> !IsSpace(s[i]) && !IsSpace(s[j - 1]))
  }

  /** The number of space characters `s` starts with. */
  function LeadingSpace(s: string): (n: nat)
    ensures n <= |s|
    ensures AllSpace(s, 0, n)
    ensures n < |s| ==> !IsSpace(s[n])
  {
    if |s| > 0 && IsSpace(s[0]) then 1 + LeadingSpace(s[1..]) else 0
  }

  /** The number of space characters `s` ends with. */
  function TrailingSpace(s: string): (n: nat)
    ensures n <= |s|
    ensures AllSpace(s, |s| - n, |s|)
    ensures n < |s| ==> !IsSpace(s[|s| - 1 - n])
  {
    if |s| > 0 && IsSpace(s[|s| - 1]) then 1 + TrailingSpace(s[..|s| - 1]) else 0
  }

  /** Where `trim` cuts `s` at its end. */
  function TrimEnd(s: string): (j: nat)
    ensures LeadingSpace(s) <= j <= |s|
  {
    |s| - TrailingSpace(s[LeadingSpace(s)..])
  }

  /** `trim` cuts `s` after its leading and before its trailing spaces. */
  lemma TrimCuts(s: string)
    ensures TrimsTo(s, LeadingSpace(s), TrimEnd(s))
  {
    var i := LeadingSpace(s);
    var t := s[i..];
    var n := TrailingSpace(t);
    forall k | TrimEnd(s) <= k < |s| ensures IsSpace(s[k]) {
      assert s[k] == t[k - i];
    }
    if i < TrimEnd(s) {
      assert s[TrimEnd(s) - 1] == t[|t| - 1 - n];
    }
  }

  /** `String.prototype.trim`: the infix of `s` left once the space
      characters at both ends are removed. */
  function Trim(s: string): (r: string)
    ensures IsTrimmed(r)
    ensures TrimsTo(s, LeadingSpace(s), TrimEnd(s)) && r == s[LeadingSpace(s)..TrimEnd(s)]
  {
    TrimCuts(s);
    s[LeadingSpace(s)..TrimEnd(s)]
  }

  /** There is only one way to trim: any two cuts that both remove only
      space characters and leave a trimmed infix leave the same infix. */
  lemma TrimCutsAgree(s: string, i: int, j: int, i': int, j': int)
    requires TrimsTo(s, i, j) && TrimsTo(s, i', j')
    ensures s[i..j] == s[i'..j']
  {
  }

  /** Whatever cut removes only spaces and leaves a trimmed infix is the one `Trim` makes. */
  lemma TrimUnique(s: string, i: int, j: int)
    requires TrimsTo(s, i, j)
    ensures Trim(s) == s[i..j]
  {
    TrimCuts(s);
    TrimCutsAgree(s, i, j, LeadingSpace(s), TrimEnd(s));
  }

  lemma TrimOfTrimmed(s: string)
    requires IsTrimmed(s)
    ensures Trim(s) == s
  {
    assert TrimsTo(s, 0, |s|);
    assert s[0..|s|] == s;
    TrimUnique(s, 0, |s|);
  }

  lemma SurroundedCut(pre: string, s: string, post: string, i: int, j: int)
    requires AllSpace(pre, 0, |pre|) && AllSpace(post, 0, |post|)
    requires TrimsTo(s, i, j)
    ensures TrimsTo(pre + s + post, |pre| + i, |pre| + j)
    ensures (pre + s + post)[|pre| + i..|pre| + j] == s[i..j]
  {
    var w := pre + s + post;
    var p := |pre|;
    forall k | 0 <= k < p + i ensures IsSpace(w[k]) {
      if k >= p { assert w[k] == s[k - p]; } else { assert w[k] == pre[k]; }
    }
    forall k | p + j <= k < |w| ensures IsSpace(w[k]) {
      if k < p + |s| { assert w[k] == s[k - p]; } else { assert w[k] == post[k - p - |s|]; }
    }
    if i < j {
      assert w[p + i] == s[i] && w[p + j - 1] == s[j - 1];
    }
    assert w[p + i..p + j] == s[i..j];
  }

  /** Space characters around `s` do not change what `trim` returns. */
  lemma TrimIgnoresSurroundingSpace(pre: string, s: string, post: string)
    requires AllSpace(pre, 0, |pre|) && AllSpace(post, 0, |post|)
    ensures Trim(pre + s + post) == Trim(s)
  {
    TrimCuts(s);
    SurroundedCut(pre, s, post, LeadingSpace(s), TrimEnd(s));
    TrimUnique(pre + s + post, |pre| + LeadingSpace(s), |pre| + TrimEnd(s));
  }

  /** ASCII upper-casing of one character. */
  function UpperChar(c: char): char {
    if 'a' <= c <= 'z' then (c as int - 32) as char else c
  }

  /** ASCII lower-casing of one character. */
  function LowerChar(c: char): char {
    if 'A' <= c <= 'Z' then (c as int + 32) as char else c
  }

  /** `String.prototype.toUpperCase` on the ASCII letters. */
  function ToUpper(s: string): (r: string)
    ensures |r| == |s|
    ensures forall k :: 0 <= k < |s| ==> r[k] == UpperChar(s[k])
  {
    seq(|s|, k requires 0 <= k < |s| => UpperChar(s[k]))
  }

  /** `String.prototype.toLowerCase` on the ASCII letters. */
  function ToLower(s: string): (r: string)
    ensures |r| == |s|
    ensures forall k :: 0 <= k < |s| ==> r[k] == LowerChar(s[k])
  {
    seq(|s|, k requires 0 <= k < |s| => LowerChar(s[k]))
  }

  /** Upper-casing leaves no lower-case ASCII letter and is idempotent. */
  lemma ToUpperIdempotent(s: string)
    ensures forall k :: 0 <= k < |s| ==> !('a' <= ToUpper(s)[k] <= 'z')
    ensures ToUpper(ToUpper(s)) == ToUpper(s)
  {
  }

  /** Upper-casing forgets the case the text was typed in. */
  lemma ToUpperIgnoresCase(s: string)
    ensures ToUpper(ToLower(s)) == ToUpper(s)
  {
  }

  lemma CaseKeepsSpace(c: char)
    ensures IsSpace(UpperChar(c)) <==> IsSpace(c)
    ensures IsSpace(LowerChar(c)) <==> IsSpace(c)
  {
  }

  /** `s` and `u` have the same length and space characters at the same positions. */
  ghost predicate SameSpaces(s: string, u: string) {
    |s| == |u| && forall k :: 0 <= k < |s| ==> (IsSpace(s[k]) <==> IsSpace(u[k]))
  }

  /** A cut that trims `s` trims any string with the same spaces. */
  lemma CutTransfers(s: string, u: string, i: int, j: int)
    requires SameSpaces(s, u) && TrimsTo(s, i, j)
    ensures TrimsTo(u, i, j)
  {
  }

  lemma UpperKeepsSpaces(s: string)
    ensures SameSpaces(s, ToUpper(s))
  {
    forall k | 0 <= k < |s| ensures IsSpace(s[k]) <==> IsSpace(ToUpper(s)[k]) {
      CaseKeepsSpace(s[k]);
    }
  }

  lemma LowerKeepsSpaces(s: string)
    ensures SameSpaces(s, ToLower(s))
  {
    forall k | 0 <= k < |s| ensures IsSpace(s[k]) <==> IsSpace(ToLower(s)[k]) {
      CaseKeepsSpace(s[k]);
    }
  }

  lemma UpperSlice(s: string, i: int, j: int)
    requires 0 <= i <= j <= |s|
    ensures ToUpper(s)[i..j] == ToUpper(s[i..j])
  {
  }

  lemma LowerSlice(s: string, i: int, j: int)
    requires 0 <= i <= j <= |s|
    ensures ToLower(s)[i..j] == ToLower(s[i..j])
  {
  }

  /** Case mapping neither creates nor removes space characters, so it
      commutes with trimming. */
  lemma TrimToUpper(s: string)
    ensures Trim(ToUpper(s)) == ToUpper(Trim(s))
  {
    var i, j := LeadingSpace(s), TrimEnd(s);
    var u := ToUpper(s);
    TrimCuts(s);
    UpperKeepsSpaces(s);
    CutTransfers(s, u, i, j);
    TrimUnique(u, i, j);
    UpperSlice(s, i, j);
  }

  lemma TrimToLower(s: string)
    ensures Trim(ToLower(s)) == ToLower(Trim(s))
  {
    var i, j := LeadingSpace(s), TrimEnd(s);
    var u := ToLower(s);
    TrimCuts(s);
    LowerKeepsSpaces(s);
    CutTransfers(s, u, i, j);
    TrimUnique(u, i, j);
    LowerSlice(s, i, j);
  }

  /** `pattern` occurs in `text` starting at position `i`. */
  ghost predicate OccursAt(pattern: string, text: string, i: int) {
    0 <= i && i + |pattern| <= |text| && text[i..i + |pattern|] == pattern
  }

  /** `pattern` occurs in `text` at some position. */
  ghost predicate IsSubstring(pattern: string, text: string) {
    exists i :: OccursAt(pattern, text, i)
  }

  /** An occurrence either starts at the first position or lies in the tail. */
  lemma SubstringStep(text: string, pattern: string)
    ensures IsSubstring(pattern, text) <==>
      (pattern <= text || (|text| > 0 && IsSubstring(pattern, text[1..])))
  {
    if pattern <= text {
      assert OccursAt(pattern, text, 0);
    }
    if |text| > 0 && IsSubstring(pattern, text[1..]) {
      var i :| OccursAt(pattern, text[1..], i);
      assert text[i + 1..i + 1 + |pattern|] == text[1..][i..i + |pattern|];
      assert OccursAt(pattern, text, i + 1);
    }
    if IsSubstring(pattern, text) && !(pattern <= text) {
      var i :| OccursAt(pattern, text, i);
      assert i > 0;
      assert text[1..][i - 1..i - 1 + |pattern|] == text[i..i + |pattern|];
      assert OccursAt(pattern, text[1..], i - 1);
    }
  }

  /** `String.prototype.includes`. */
  function Contains(text: string, pattern: string): (b: bool)
    ensures b <==> IsSubstring(pattern, text)
    decreases |text|
  {
    SubstringStep(text, pattern);
    if pattern <= text then true
    else if |text| == 0 then false
    else Contains(text[1..], pattern)
  }

  /** Every string includes the empty string. */
  lemma ContainsEmpty(text: string)
    ensures Contains(text, "")
  {
    assert OccursAt("", text, 0);
  }

  predicate IsDigit(c: char) { '0' <= c <= '9' }

  function DigitChar(d: nat): (c: char)
    requires d < 10
  {
    ('0' as int + d) as char
  }

  /** The decimal digits of `n`, most significant first, without leading zeros. */
  function NatToDecimal(n: nat): (r: string)
    ensures |r| >= 1
    ensures forall k :: 0 <= k < |r| ==> IsDigit(r[k])
    ensures r[0] == '0' ==> n == 0 && r == "0"
    decreases n
  {
    if n < 10 then [DigitChar(n)] else NatToDecimal(n / 10) + [DigitChar(n % 10)]
  }

  /** The number a string of decimal digits denotes. */
  function DecimalValue(s: string): nat
    requires forall k :: 0 <= k < |s| ==> IsDigit(s[k])
  {
    if |s| == 0 then 0
    else
      assert IsDigit(s[|s| - 1]);
      DecimalValue(s[..|s| - 1]) * 10 + (s[|s| - 1] as int - '0' as int)
  }

  /** Reading the rendered digits back gives the number. */
  lemma {:induction false} DecimalRoundTrip(n: nat)
    ensures DecimalValue(NatToDecimal(n)) == n
    decreases n
  {
    var r := NatToDecimal(n);
    if n >= 10 {
      DecimalRoundTrip(n / 10);
      assert r[..|r| - 1] == NatToDecimal(n / 10);
    }
  }

  /** An integer as JavaScript renders it: a minus sign before the digits of
      a negative value. */
  function IntToDecimal(i: int): (r: string)
    ensures i < 0 <==> (|r| > 0 && r[0] == '-')
    ensures forall k :: 0 <= k < |r| ==> IsDigit(r[k]) || (k == 0 && r[k] == '-')
  {
    if i < 0 then "-" + NatToDecimal(-i) else NatToDecimal(i)
  }
}

=== FILE: user_view.dfy ===
/** The pure logic of the customer's tracking view (`components/UserView.tsx`):
    normalising the typed tracking code, looking it up among the fetched
    orders, the state the search leaves behind, and the public status labels.

    The lookup is modelled twice. `FindAsWritten` follows the code as it
    stands: it calls `trim` on every code it passes, so an order without a
    code makes the search throw. `FindByCode` skips such orders; it is the
    lookup `HandleSearch` uses. */
module UserView {
  import opened Wrappers
  import opened Seqs
  import opened Text
  import opened Domain
  import opened Store

  // ---------------------------------------------------------------------------
  // The search key

  /** The typed code, trimmed and upper-cased. */
  function SearchKey(input: string): (key: string)
    ensures exists i, j :: TrimsTo(input, i, j) && key == ToUpper(input[i..j])
    ensures IsTrimmed(key)
    ensures forall k :: 0 <= k < |key| ==> !('a' <= key[k] <= 'z')
  {
    TrimToUpper(input);
    ToUpperIdempotent(Trim(input));
    TrimCuts(input);
    ToUpper(Trim(input))
  }

  /** Normalising a key a second time changes nothing. */
  lemma SearchKeyIdempotent(input: string)
    ensures SearchKey(SearchKey(input)) == SearchKey(input)
  {
    var key := SearchKey(input);
    TrimOfTrimmed(key);
    ToUpperIdempotent(Trim(input));
  }

  /** The key does not depend on the case the code is typed in. */
  lemma SearchKeyIgnoresCase(input: string)
    ensures SearchKey(ToLower(input)) == SearchKey(input)
  {
    TrimToLower(input);
    TrimToUpper(input);
    TrimToUpper(ToLower(input));
    ToUpperIgnoresCase(input);
  }

  /** Nor on spaces typed before or after it. */
  lemma SearchKeyIgnoresSurroundingSpace(pre: string, input: string, post: string)
    requires AllSpace(pre, 0, |pre|) && AllSpace(post, 0, |post|)
    ensures SearchKey(pre + input + post) == SearchKey(input)
  {
    TrimIgnoresSurroundingSpace(pre, input, post);
  }

  // ---------------------------------------------------------------------------
  // Looking the key up

  /** The order carries a code whose key is `key`. */
  predicate HasKey(o: Order, key: string) {
    o.orderCode.Some? && SearchKey(o.orderCode.value) == key
  }

  function KeyTest(key: string): Order -> bool {
    (o: Order) => HasKey(o, key)
  }

  /** The first order, in list order, whose code has the key; `None` when
      no order has it. Orders without a code never match. */
  function FindByCode(orders: seq<Order>, key: string): (r: Option<Order>)
    ensures r.Some? ==>
      exists i :: (0 <= i < |orders| && orders[i] == r.value
                   && HasKey(orders[i], key) && forall j :: 0 <= j < i ==> !HasKey(orders[j], key))
    ensures r.None? <==> forall i :: 0 <= i < |orders| ==> !HasKey(orders[i], key)
  {
    match FirstIndex(orders, KeyTest(key))
    case None => None
    case Some(i) => Some(orders[i])
  }

  /** What the lookup as written comes to. */
  datatype Lookup = Threw | Found(order: Order) | NotFound

  /** The order at `i` has no code and no order before it has the key:
      a `find` that trims every code it reaches fails there. */
  predicate UncodedBeforeMatch(orders: seq<Order>, key: string, i: int) {
    0 <= i < |orders| && orders[i].orderCode.None? && forall j :: 0 <= j < i ==> !HasKey(orders[j], key)
  }

  /** Past a coded order without the key, the failing positions are those
      of the rest of the list, shifted by one. */
  lemma UncodedBeforeMatchShift(orders: seq<Order>, key: string)
    requires |orders| > 0 && orders[0].orderCode.Some? && !HasKey(orders[0], key)
    ensures (exists i :: UncodedBeforeMatch(orders, key, i)) <==> (exists i :: UncodedBeforeMatch(orders[1..], key, i))
  {
    if i :| UncodedBeforeMatch(orders, key, i) {
      assert UncodedBeforeMatch(orders[1..], key, i - 1) by {
        forall j | 0 <= j < i - 1 ensures !HasKey(orders[1..][j], key) {
          assert orders[1..][j] == orders[j + 1];
        }
      }
    }
    if i :| UncodedBeforeMatch(orders[1..], key, i) {
      assert UncodedBeforeMatch(orders, key, i + 1) by {
        forall j | 0 <= j < i + 1 ensures !HasKey(orders[j], key) {
          if j > 0 { assert orders[j] == orders[1..][j - 1]; }
        }
      }
    }
  }

  /** `orders.find` with a callback that trims every code it reaches: the
      first order without a code, unless a match comes before it, throws. */
  function FindAsWritten(orders: seq<Order>, key: string): (r: Lookup)
    ensures r.Found? ==> r.order in orders && HasKey(r.order, key)
    ensures r.Threw? <==> exists i :: UncodedBeforeMatch(orders, key, i)
  {
    if |orders| == 0 then NotFound
    else if orders[0].orderCode.None? then
      assert UncodedBeforeMatch(orders, key, 0);
      Threw
    else if SearchKey(orders[0].orderCode.value) == key then Found(orders[0])
    else
      UncodedBeforeMatchShift(orders, key);
      FindAsWritten(orders[1..], key)
  }

  /** Whenever the lookup as written does not throw, it finds what
      `FindByCode` finds. */
  lemma {:induction false} AsWrittenAgreesUnlessThrown(orders: seq<Order>, key: string)
    requires !FindAsWritten(orders, key).Threw?
    ensures FindAsWritten(orders, key) ==
      (if FindByCode(orders, key).Some? then Found(FindByCode(orders, key).value) else NotFound)
  {
    if |orders| > 0 && !HasKey(orders[0], key) {
      AsWrittenAgreesUnlessThrown(orders[1..], key);
      FindByCodeStep(orders, key);
    }
  }

  lemma FindByCodeStep(orders: seq<Order>, key: string)
    requires |orders| > 0 && !HasKey(orders[0], key)
    ensures FindByCode(orders, key) == FindByCode(orders[1..], key)
  {
    var p := KeyTest(key);
    assert !p(orders[0]);
    match FirstIndex(orders[1..], p)
    case None =>
    case Some(i) => assert orders[i + 1] == orders[1..][i];
  }

  /** With every code present the lookup as written never throws. */
  lemma {:induction false} CodesPresentNeverThrows(orders: seq<Order>, key: string)
    requires forall i :: 0 <= i < |orders| ==> orders[i].orderCode.Some?
    ensures !FindAsWritten(orders, key).Threw?
  {
    if |orders| > 0 && !HasKey(orders[0], key) {
      CodesPresentNeverThrows(orders[1..], key);
    }
  }

  // ---------------------------------------------------------------------------
  // The search

  datatype SearchState = SearchState(foundOrder: Option<Order>, loading: bool, error: string)

  const InitialState: SearchState := SearchState(None, false, "")

  /** The state a search leaves, and what the fetch it made did. */
  datatype Searched = Searched(state: SearchState, cache: Option<seq<Order>>, sent: seq<HttpRequest>)

  function NotFoundMessage(isAr: bool): (text: string)
    ensures |text| > 0
  {
    if isAr then "رقم الشحنة غير صحيح أو غير موجود حالياً" else "Shipment code not found"
  }

  /** `handleSearch` with the lookup that skips orders without a code. A
      blank code does nothing; otherwise the orders are fetched and the
      search ends with loading off and either the first matching order
      shown or the not-found message. */
  function HandleSearch(state: SearchState, input: string, isAr: bool,
                        cfg: DbConfig, cache: Option<seq<Order>>, outcome: HttpOutcome<WireOrder>): (r: Searched)
    ensures SearchKey(input) == "" ==> r == Searched(state, cache, [])
    ensures SearchKey(input) != "" ==>
      var f := FetchOrders(cfg, cache, outcome);
      && r.cache == f.cache && r.sent == f.sent
      && !r.state.loading
      && (r.state.foundOrder.Some? <==> exists i :: 0 <= i < |f.orders| && HasKey(f.orders[i], SearchKey(input)))
      && (r.state.foundOrder.Some? ==>
            r.state.error == ""
            && exists i :: (0 <= i < |f.orders| && f.orders[i] == r.state.foundOrder.value
                            && HasKey(f.orders[i], SearchKey(input))
                            && forall j :: 0 <= j < i ==> !HasKey(f.orders[j], SearchKey(input))))
      && (r.state.foundOrder.None? ==> r.state.error == NotFoundMessage(isAr))
  {
    var key := SearchKey(input);
    if key == "" then Searched(state, cache, [])
    else
      var f := FetchOrders(cfg, cache, outcome);
      match FindByCode(f.orders, key)
      case Some(order) => Searched(SearchState(Some(order), false, ""), f.cache, f.sent)
      case None => Searched(SearchState(None, false, NotFoundMessage(isAr)), f.cache, f.sent)
  }

  /** `handleSearch` as written. When the lookup throws, the promise is
      rejected after loading was switched on and the error cleared, so the
      view is left loading with the previous order still shown. */
  function HandleSearchAsWritten(state: SearchState, input: string, isAr: bool,
                                 cfg: DbConfig, cache: Option<seq<Order>>, outcome: HttpOutcome<WireOrder>): (r: Searched)
    ensures SearchKey(input) != "" && FindAsWritten(FetchOrders(cfg, cache, outcome).orders, SearchKey(input)).Threw? ==>
      r.state == state.(loading := true, error := "")
      && r.cache == FetchOrders(cfg, cache, outcome).cache && r.sent == FetchOrders(cfg, cache, outcome).sent
    ensures SearchKey(input) == "" || !FindAsWritten(FetchOrders(cfg, cache, outcome).orders, SearchKey(input)).Threw? ==>
      r == HandleSearch(state, input, isAr, cfg, cache, outcome)
  {
    var key := SearchKey(input);
    if key == "" then Searched(state, cache, [])
    else
      var f := FetchOrders(cfg, cache, outcome);
      var found := FindAsWritten(f.orders, key);
      if found.Threw? then Searched(state.(loading := true, error := ""), f.cache, f.sent)
      else
        AsWrittenAgreesUnlessThrown(f.orders, key);
        match found
        case Found(order) => Searched(SearchState(Some(order), false, ""), f.cache, f.sent)
        case NotFound => Searched(SearchState(None, false, NotFoundMessage(isAr)), f.cache, f.sent)
  }

  /** When every fetched order has a code, the search as written and the
      corrected one agree. */
  lemma AsWrittenAgreesWithCodes(state: SearchState, input: string, isAr: bool,
                                 cfg: DbConfig, cache: Option<seq<Order>>, outcome: HttpOutcome<WireOrder>)
    requires var orders := FetchOrders(cfg, cache, outcome).orders;
      forall i :: 0 <= i < |orders| ==> orders[i].orderCode.Some?
    ensures HandleSearchAsWritten(state, input, isAr, cfg, cache, outcome)
      == HandleSearch(state, input, isAr, cfg, cache, outcome)
  {
    CodesPresentNeverThrows(FetchOrders(cfg, cache, outcome).orders, SearchKey(input));
  }

  /** An order saved without a code ahead of the one searched for: offline,
      with the local mirror holding the two. */
  const Uncoded: Order := SampleOrder.(orderCode := None)
  const Coded: Order := SampleOrder.(orderCode := Some("LY-1"))
  const SampleOrder: Order := Order(
    id := None, orderCode := None, customerName := Some("A"),
    customerPhone := None, customerAddress := None, productName := None,
    quantity := None, totalPrice := None, status := None,
    currentPhysicalLocation := None, updatedAt := None,
    customerLocation := None, driverLocation := None)
  const Offline: DbConfig := DbConfig(false, None, None)

  lemma UpperOfCode(s: string)
    requires s == "ly-1" || s == "LY-1"
    ensures ToUpper(s) == "LY-1"
  {
    var u := ToUpper(s);
    assert u[0] == 'L' && u[1] == 'Y' && u[2] == '-' && u[3] == '1';
  }

  lemma KeyOfCode(s: string)
    requires s == "ly-1" || s == "LY-1"
    ensures SearchKey(s) == "LY-1"
  {
    assert IsTrimmed(s);
    TrimOfTrimmed(s);
    UpperOfCode(s);
  }

  /** Searching for `ly-1` with an uncoded order listed first: the search as
      written stays loading and shows nothing, the corrected one finds the order. */
  lemma MissingCodeLeavesSearchLoading(isAr: bool)
    ensures HandleSearchAsWritten(InitialState, "ly-1", isAr, Offline, Some([Uncoded, Coded]), NetworkError).state
      == SearchState(None, true, "")
    ensures HandleSearch(InitialState, "ly-1", isAr, Offline, Some([Uncoded, Coded]), NetworkError).state
      == SearchState(Some(Coded), false, "")
  {
    KeyOfCode("ly-1");
    KeyOfCode("LY-1");
    var orders := [Uncoded, Coded];
    assert FetchOrders(Offline, Some(orders), NetworkError).orders == orders;
    assert FindAsWritten(orders, "LY-1") == Threw;
    assert !HasKey(orders[0], "LY-1") && HasKey(orders[1], "LY-1");
    assert FindByCode(orders, "LY-1") == Some(Coded);
  }

  // ---------------------------------------------------------------------------
  // Public status labels

  /** The customer's label for each status. The two stages in China share one label. */
  function PublicStatusLabel(isAr: bool, s: OrderStatus): (text: string)
    ensures |text| > 0
  {
    match s
    case ChinaStore => if isAr then "في مخزن الصين" else "In China"
    case ChinaWarehouse => if isAr then "في مخزن الصين" else "In China"
    case EnRoute => if isAr then "في الشحن الدولي" else "En Route"
    case LibyaWarehouse => if isAr then "وصلت ليبيا" else "In Libya"
    case OutForDelivery => if isAr then "مع المندوب" else "Out for Delivery"
    case Delivered => if isAr then "تم التسليم" else "Delivered"
  }

  predicate InChina(s: OrderStatus) {
    s == ChinaStore || s == ChinaWarehouse
  }

  /** The customer sees two statuses as the same exactly when they are equal
      or both are stages in China. */
  lemma PublicLabelsMergeChina(isAr: bool, a: OrderStatus, b: OrderStatus)
    ensures PublicStatusLabel(isAr, a) == PublicStatusLabel(isAr, b) <==> a == b || (InChina(a) && InChina(b))
  {
  }
}

=== FILE: wrappers.dfy ===
/** The optional value used throughout the model: a JavaScript property that is
    `undefined` or `null` (or a number that is `NaN`) is `None`. */
module Wrappers {

  datatype Option<+T> = None | Some(value: T) {

    /** The encapsulated value, or `default` when there is none. */
    function GetOr(default: T): T {
      match this
      case Some(v) => v
      case None => default
    }
  }
}
